=== FILE: README.md ===
# SwitchController core, modelled in Dafny

SwitchController is a WPF remote control for a game console. This project
models the decision logic of its main window and its settings dialog.

- **Virtual sticks.** The knob is clamped to the stick's radius and
  normalised to a value in the unit disc, with a dead zone. The value is
  rounded to two signed 16-bit shorts. Updates pass a 15 ms throttle. A
  gesture that ends quickly and stays small is a tap, and a tap clicks the
  stick.
- **Console buttons.** Each on-screen button maps to a console button by
  its control name. A press clicks the button, and a 400 ms timer may
  later hold it down. A release cancels the hold and releases the button.
- **Connection gate.** `Click`, `HoldDown`, `HoldUp` and `SetStick` send
  only while connected. Each command that is sent keeps the screen preview
  alive.
- **Connection attempt.** Every way an attempt can end is mapped to the
  indicator, the status text, the log line and the dialog.
- **Screen feed.** There are three strategies, chosen by the stream mode:
  - mode 0: a polling loop that replaces any earlier loop;
  - mode 1: a preview that runs for a while after each command;
  - mode 2: an RTSP player, plus a rescue button that switches to polling.
- **Screenshot, stop and settings.** The screenshot button, the stop
  button, and the main window's save and load of address and port.
- **Settings dialog.** Validation, nine-field change detection, the
  restart decision, and the load-time defaults.

Everything is a pure function over immutable records. Time is an integer
millisecond clock `now`. A stopwatch is `now` minus the time it was
restarted. Pixel geometry uses `real`. `Math.Sqrt` becomes a witness
parameter `len` with `len >= 0 && len * len == x * x + y * y`, and the
8 px dead zone is tested on squared lengths. Sockets, the player, dialogs
and files are inputs or recorded outputs:
- an `Attempt` says how far a connection got and what it threw;
- `playError` is what the player threw;
- a `Fetch` is what a screen grab returned;
- `messages` records the dialogs shown;
- `files` records the files written;
- `sent` records the commands that reached the console.

`App.Step` puts it together: one event at a time (the window loading, a
click, a drag, a timer firing, one pass of a loop) applied to the whole
window, as the code is written. `App.StepIntended` is the same window with
the three corrections listed under "Findings".

Modules:
- `Wrappers` and `Text` hold .NET string helpers: `Trim`, `int.TryParse`,
  `ToString`, and ordinal case-insensitive comparison.
- `Ipv4` holds the address pattern.
- `Settings` holds the dialog and the main window's own save.
- `Geometry`, `StickCodec`, `Throttle` and `StickInput` hold the sticks.
- `Commands` holds the button table.
- `Hold` holds the press/hold/release timers.
- `Preview` holds the mode-1 preview.
- `Window` holds the gate, the loops, the player, stop and screenshot.
- `Connection` holds `Connect` and the start button.
- `App` holds the event loop and its invariants.

Three behaviours of the code that the model keeps as written:
- The dead zone is measured on the clamped knob, because `UpdateNormalized*`
  runs after the clamp.
- Leaving the player by the rescue button hides the player and does not
  stop it (`MainWindow.xaml.cs:970-977`).
- The stop button leaves the `_rtspStreaming` flag as it was.

## Model

| member | source | states |
|---|---|---|
| StickCodec.Saturate | SwitchController/MainWindow.xaml.cs:107-108 | the result lies in [-1, 1], equals the input inside it, and is the nearer bound outside it |
| StickCodec.RoundHalfEven | SwitchController/MainWindow.xaml.cs:107-108 | `Math.Round`: the result is within one half of the input, and an exact tie goes to the even neighbour |
| StickCodec.RoundHalfEvenUnique | SwitchController/MainWindow.xaml.cs:107-108 | any integer strictly within one half of the input is its rounding |
| StickCodec.RoundHalfEvenOdd | SwitchController/MainWindow.xaml.cs:107-108 | rounding commutes with negation |
| StickCodec.RoundHalfEvenMonotone | SwitchController/MainWindow.xaml.cs:107-108 | rounding never reverses the order of two values |
| StickCodec.ClampStick | SwitchController/MainWindow.xaml.cs:107-108 | the short lies in [-32767, 32767]; 1.0 and above give 32767, -1.0 and below give -32767, 0.0 gives 0; otherwise it is within one half of the saturated value times 32767, and on a tie it is the even neighbour |
| StickCodec.ClampStickOdd | SwitchController/MainWindow.xaml.cs:107-108 | opposite deflections give opposite shorts |
| StickCodec.ClampStickMonotone | SwitchController/MainWindow.xaml.cs:107-108 | a larger deflection never gives a smaller short |
| Throttle.Check | SwitchController/MainWindow.xaml.cs:110-118 | an update is forwarded iff the stopwatch is at least 15 ms past the last send; the last-send time becomes the stopwatch on a forward and is otherwise kept |
| Throttle.Forwarded | SwitchController/MainWindow.xaml.cs:110-118 | the forwarded updates of a sequence are among its times and no more numerous |
| Throttle.ForwardedSpacing | SwitchController/MainWindow.xaml.cs:110-118 | the first forwarded update is at least 15 ms after the last send, and consecutive forwarded updates are at least 15 ms apart |
| Throttle.SpacedGrows | SwitchController/MainWindow.xaml.cs:110-118 | updates spaced by 15 ms lie at least k times 15 ms after the first |
| Throttle.BurstBound | SwitchController/MainWindow.xaml.cs:110-118 | within a window of `hi - lo` ms at most `(hi - lo) / 15 + 1` updates are forwarded |
| Geometry.ClampedLength | SwitchController/MainWindow.xaml.cs:157-162 | the clamped distance is never above a non-negative radius and equals the distance inside it |
| Geometry.ClampToRadius | SwitchController/MainWindow.xaml.cs:223-234 | an offset inside the radius is unchanged; an outside offset is rescaled onto the circle, on the same ray; the result is never outside a non-negative radius |
| Geometry.ClampIdempotent | SwitchController/MainWindow.xaml.cs:223-234 | clamping a clamped knob again changes nothing |
| Geometry.Normalise | SwitchController/MainWindow.xaml.cs:204-215 | (0, 0) inside the 8 px dead zone or for a radius of at most 0.0001; otherwise the offset over the radius with the y axis flipped |
| Geometry.NormaliseInUnitDisc | SwitchController/MainWindow.xaml.cs:204-215 | a knob inside the radius gives a value in the unit disc, each coordinate in [-1, 1] |
| Geometry.Radius | SwitchController/MainWindow.xaml.cs:127-128 | twice the radius plus the thumb width is the smaller of the widget's width and height |
| StickInput.Loaded | SwitchController/MainWindow.xaml.cs:120-141 | the stick takes its radius from the widget, and its stopwatch, throttle and gesture distance restart |
| StickInput.UpdateNormalised | SwitchController/MainWindow.xaml.cs:204-221 | the value is centred in the dead zone and for a degenerate radius, and is otherwise the knob over the radius with y flipped and inside the unit disc; exactly one `SetStick` of the rounded value is asked for iff the throttle lets it through |
| StickInput.SizeChanged | SwitchController/MainWindow.xaml.cs:131-137 | the new radius is taken, the knob is clamped into it (unchanged if already inside), and at most one update is sent |
| StickInput.Resized | SwitchController/MainWindow.xaml.cs:131-135 | the radius comes from the new widget size and the knob is clamped into it, unchanged if already inside; nothing else changes |
| StickInput.Moved | SwitchController/MainWindow.xaml.cs:149-169 | the moved knob is clamped onto the same ray within the radius, and the gesture's distance becomes the larger of the old one and the clamped distance; nothing else changes |
| StickInput.DragStartedAsWritten | SwitchController/MainWindow.xaml.cs:143-147 | the stopwatch and gesture distance restart; the throttle's last-send time is kept |
| StickInput.DragStarted | SwitchController/MainWindow.xaml.cs:143-147 | as above, with the last-send time reset to 0 together with the stopwatch it is measured on |
| StickInput.DragDelta | SwitchController/MainWindow.xaml.cs:149-170 | the knob follows the drag inside the radius and is held on the circle, on the same ray, outside; the gesture distance is the running maximum of the clamped distances; an update is sent iff the throttle allows, and only `SetStick` is asked for; the radius, the stopwatch and the side never change |
| StickInput.Drag | SwitchController/MainWindow.xaml.cs:149-170 | the moves of a gesture ask only for `SetStick`, at most one per move, and keep the radius and the stopwatch |
| StickInput.DragStaysUnder | SwitchController/MainWindow.xaml.cs:157-169 | after a series of moves the gesture's distance is under a bound iff it started under it and every move's clamped distance was under it |
| StickInput.DragCompleted | SwitchController/MainWindow.xaml.cs:172-202 | exactly one click of the stick's own button iff the gesture stayed under 6 px and lasted under 200 ms (both strict), nothing otherwise; the value is centred, the distance reset and the stopwatch restarted |
| StickInput.GestureClicksIffTap | SwitchController/MainWindow.xaml.cs:143-202 | a whole gesture (drag start, moves, drag end) clicks its stick iff every move kept the clamped knob under 6 px from the centre and the gesture lasted under 200 ms |
| StickInput.ReturnAnimationDone | SwitchController/MainWindow.xaml.cs:181-190 | the knob is back at the centre and (0, 0) is sent, bypassing the throttle |
| StickInput.StaleThrottleDropsNextGesture | SwitchController/MainWindow.xaml.cs:143-147 | a gesture that last sent at 3000 ms makes the next gesture's move at 500 ms, far outside the dead zone, send nothing |
| StickInput.RestartedThrottleSendsFirstMove | SwitchController/MainWindow.xaml.cs:143-147 | with the throttle restarted, a gesture's first move 15 ms or more after its start is always sent |
| Commands.StickButton | SwitchController/MainWindow.xaml.cs:195-197 | a stick tap clicks `LSTICK` for the left stick and `RSTICK` for the right |
| Commands.ButtonOfName | SwitchController/MainWindow.xaml.cs:808-827 | the control-name table never yields a stick button |
| Commands.NameOfButton | SwitchController/MainWindow.xaml.cs:857-876 | every console button but the two stick buttons has a control |
| Commands.ButtonTableIsBijection | SwitchController/MainWindow.xaml.cs:808-827 | the table and its reverse agree: a name selects a button iff that button's control has that name |
| Commands.ButtonOfNameInjective | SwitchController/MainWindow.xaml.cs:808-827 | no two control names select the same button |
| Hold.ButtonDown | SwitchController/MainWindow.xaml.cs:804-846 | an unknown control does nothing; otherwise the button is clicked, holding starts and a new timer with a fresh token is added |
| Hold.ButtonUp | SwitchController/MainWindow.xaml.cs:853-885 | an unknown control does nothing; otherwise holding stops, the latest timer's token is cancelled and nothing else about it changes, no other timer changes, and the button is released |
| Hold.FireAsWritten | SwitchController/MainWindow.xaml.cs:833-843 | a timer's first firing holds its button iff the window is holding, whatever its token says; only that timer changes, and only in that it has fired |
| Hold.Fire | SwitchController/MainWindow.xaml.cs:833-843 | a timer's first firing holds its button iff the window is holding and its own token is not cancelled; only that timer changes, and only in that it has fired |
| Hold.StaleTimerHoldsReleasedButton | SwitchController/MainWindow.xaml.cs:833-843 | pressing A, releasing A and pressing B before A's timer fires sends Click A, Release A, Click B, Hold A |
| Hold.Run | SwitchController/MainWindow.xaml.cs:804-885 | a sequence of presses, releases and firings, with timers that fire as `Hold.Fire` (the corrected timer), leaves exactly one timer per press of a known button and loses none; the contracts of `Hold.Fire` and `Hold.FireAsWritten` give the same new state, so these facts do not depend on which timer runs |
| Hold.HoldingFollowsLastPress | SwitchController/MainWindow.xaml.cs:804-885 | after a sequence of events, holding is decided by the last press or release of a known control (a press means holding), and is unchanged when there is none |
| Hold.CancelledStaysCancelled | SwitchController/MainWindow.xaml.cs:853-885 | a cancelled token stays cancelled whatever follows |
| Hold.ReleasedPressNeverHolds | SwitchController/MainWindow.xaml.cs:833-843 | with the token checked, a press released before its timer fires never holds, whatever comes in between |
| Preview.Trigger | SwitchController/MainWindow.xaml.cs:548-562 | nothing happens outside mode 1; otherwise the deadline becomes the later of the old one and now plus the duration, and a loop is started exactly when none is running |
| Preview.Tick | SwitchController/MainWindow.xaml.cs:569-571 | the loop carries on iff it was running, the console is connected and the deadline lies ahead |
| Preview.TriggerAll | SwitchController/MainWindow.xaml.cs:548-562 | a burst of triggers never lowers the count of loops started |
| Preview.BurstStartsAtMostOneLoop | SwitchController/MainWindow.xaml.cs:548-562 | a burst of commands starts at most one loop (none if one runs), never moves the deadline back, and covers every command's own deadline |
| Preview.TriggerKeepsLoopAlive | SwitchController/MainWindow.xaml.cs:548-571 | after a command, the loop passes its guard until the duration has elapsed, while connected |
| Window.Init | SwitchController/MainWindow.xaml.cs:63-76 | the window starts disconnected, with nothing sent, no loop, the image shown and the player hidden |
| Window.PreviewMs | SwitchController/MainWindow.xaml.cs:717-797 | button commands keep the preview alive for 2 s and stick commands for 1 s |
| Window.TriggerPreview | SwitchController/MainWindow.xaml.cs:548-562 | only the preview changes; its deadline never moves back, and in mode 1 it covers the duration and a loop runs |
| Window.Send | SwitchController/MainWindow.xaml.cs:717-797 | when the gate is open (the stick needs the connection, a button needs it and `CON`), exactly the command is appended and the preview covers its duration; otherwise nothing is sent and only the not-connected log is set |
| Window.SendAll | SwitchController/MainWindow.xaml.cs:717-797 | sending never changes the connection, the screen feed or the last frame, and never moves the preview deadline back |
| Window.SendAllDisconnected | SwitchController/MainWindow.xaml.cs:782-797 | while disconnected, a gesture's requests send nothing, and the only visible effect is the not-connected log |
| Window.SendAllConnected | SwitchController/MainWindow.xaml.cs:717-797 | while connected, a gesture's requests are sent in order |
| Window.StopScreenStream | SwitchController/MainWindow.xaml.cs:618-623 | the current loop's token is cancelled and forgotten; no other loop changes |
| Window.StartScreenStream | SwitchController/MainWindow.xaml.cs:608-616 | outside mode 0 an unforced start does nothing; otherwise the current loop is cancelled and a fresh running loop becomes current |
| Window.ScreenTick | SwitchController/MainWindow.xaml.cs:673-709 | a running loop carries on iff its token is not cancelled, the console is connected and the player is not streaming; only a passing loop stores a frame; no other loop changes |
| Window.Deliver | SwitchController/MainWindow.xaml.cs:683-687 | a non-empty frame becomes the last frame; an empty one changes nothing |
| Window.PreviewTick | SwitchController/MainWindow.xaml.cs:565-603 | the preview loop carries on iff the console is connected and the deadline lies ahead; only a passing loop stores a frame |
| Window.RtspUrl | SwitchController/MainWindow.xaml.cs:472 | the stream address is never blank |
| Window.StopRtspStream | SwitchController/MainWindow.xaml.cs:666-671 | the player stops and the image is shown in its place; the streaming flag and the loops are as they were |
| Window.StartRtspStream | SwitchController/MainWindow.xaml.cs:625-664 | nothing outside mode 2; a blank address only warns; otherwise the player shows and plays, or on a player error the image comes back with a yellow "RTSP 未连接" and a dialog |
| Window.Rescue | SwitchController/MainWindow.xaml.cs:970-988 | from the player it switches to a fresh forced polling loop, labelled "RTSP恢复", leaving the player's stream as it was; otherwise it labels "RTSP救援" and restarts the player |
| Window.StopClick | SwitchController/MainWindow.xaml.cs:900-917 | disconnected with a fresh cancellation source, start enabled, stop and screenshot disabled, the player stopped, red "未连接" and the disconnect log |
| Window.CaptureBuffer | SwitchController/MainWindow.xaml.cs:942-944 | the last frame if there is one, otherwise the fresh grab, a null grab reading as empty and a failed grab as none |
| Window.Capture | SwitchController/MainWindow.xaml.cs:919-968 | disconnected only warns; a cancelled dialog does nothing; a file is written only with non-empty buffer bytes to the chosen path; an empty buffer warns and writes nothing; a grab or a write that throws shows "截图保存失败：" with its message, logs "截图保存失败。" and writes nothing; the last frame becomes the buffer that was used |
| Window.CaptureSavesLastFrame | SwitchController/MainWindow.xaml.cs:942-953 | with a last frame at hand the screenshot saves exactly those bytes, whatever a fresh grab would return |
| Connection.WaitFaultAsWritten | SwitchController/MainWindow.xaml.cs:432-438 | an expired wait throws a generic exception with the wait's own message |
| Connection.WaitFault | SwitchController/MainWindow.xaml.cs:475-486 | an expired wait is a cancellation, handled as the timeout |
| Connection.SocketDialog | SwitchController/MainWindow.xaml.cs:502-509 | the dialog starts with "连接失败：" and ends with the whole system message; between the two it shows `code - ` exactly when the message contains neither "未能响应" nor "主动拒绝", and nothing otherwise |
| Connection.HandleFault | SwitchController/MainWindow.xaml.cs:474-530 | every fault ends disconnected, red, "未连接"; timeout, socket and other faults log "连接超时", "连接失败" and "连接异常" with their dialogs; only the socket branch on a live socket sends the detach |
| Connection.SuccessLog | SwitchController/MainWindow.xaml.cs:459-462 | the title id in the log, or "未启动游戏" for the id 0000000000000000 |
| Connection.Live | SwitchController/MainWindow.xaml.cs:449-473 | the attempt ends connected iff the title query succeeded |
| Connection.Attempted | SwitchController/MainWindow.xaml.cs:427-530 | on a disconnected socket, the attempt ends connected iff it identified the console |
| Connection.ConnectWith | SwitchController/MainWindow.xaml.cs:419-539 | the inputs end enabled; a live connection is left alone; otherwise it ends connected iff the console was identified; the start, stop and screenshot buttons are untouched |
| Connection.ConnectAsWritten | SwitchController/MainWindow.xaml.cs:419-539 | as `ConnectWith`, with an expired wait taking the generic branch |
| Connection.Connect | SwitchController/MainWindow.xaml.cs:419-539 | as `ConnectWith`, with an expired wait reported as the timeout |
| Connection.FailedAttemptEndsDisconnected | SwitchController/MainWindow.xaml.cs:474-538 | every failed attempt ends disconnected, red, "未连接", with the inputs enabled and the screen feed untouched; an expired wait logs the timeout |
| Connection.IdentifiedAttemptConnects | SwitchController/MainWindow.xaml.cs:449-473 | an identified console ends connected with the title logged; mode 0 runs a fresh polling loop, mode 1 previews for at least 2 s, and mode 2 plays iff the player did not throw |
| Connection.ExpiredWaitIsNotReportedAsTimeout | SwitchController/MainWindow.xaml.cs:432-438 | an expired wait logs "连接异常" and shows the wait's own message, not the timeout |
| Connection.Session | SwitchController/MainWindow.xaml.cs:385-393 | a fresh, unconnected session with stop and screenshot enabled and start disabled; the screen feed, the mode and what was sent are untouched |
| Connection.StartClick | SwitchController/MainWindow.xaml.cs:385-395 | a fresh session, then `Connect` as written: stop and screenshot enabled, start disabled, inputs enabled, connected iff the console was identified, and an expired wait logged as "连接异常" |
| Connection.StartClickIntended | SwitchController/MainWindow.xaml.cs:385-395 | the same with the expired wait logged as the timeout, "连接超时" |
| Ipv4.SplitDots | SwitchController/SettingsWindow.xaml.cs:47 | splitting at the dots gives at least one part |
| Ipv4.OctetPatternIsValidOctet | SwitchController/SettingsWindow.xaml.cs:47 | the octet alternatives accept exactly one to three ASCII digits of value at most 255 |
| Ipv4.PatternBodyIsDottedQuad | SwitchController/SettingsWindow.xaml.cs:47 | the pattern's body accepts exactly four dot-separated octets |
| Ipv4.IpTextAcceptedIffRegex | SwitchController/MainWindow.xaml.cs:96-98 | the executable address check agrees with the anchored pattern, `$` accepting one final line feed |
| Ipv4.TrimmedAcceptedIsDottedQuad | SwitchController/SettingsWindow.xaml.cs:43-51 | on text with no trailing white space the check accepts exactly the dotted quads |
| Ipv4.AcceptedTrimmedIsDottedQuad | SwitchController/MainWindow.xaml.cs:96-103 | accepted text, once trimmed, is a dotted quad |
| Ipv4.DottedQuadChars | SwitchController/SettingsWindow.xaml.cs:47 | a dotted quad holds only dots and ASCII digits |
| Text.Trim | SwitchController/SettingsWindow.xaml.cs:43-44 | the trimmed text occurs in the text, neither starts nor ends with white space, and is the whole text when it has none |
| Text.TrimCutsWhiteSpace | SwitchController/SettingsWindow.xaml.cs:43-44 | what `Trim` cuts off on either side is white space |
| Text.TrimIsUnique | SwitchController/SettingsWindow.xaml.cs:43-44 | any infix that neither starts nor ends with white space and has only white space around it is the trimmed text |
| Text.TryParseInt | SwitchController/SettingsWindow.xaml.cs:52 | `int.TryParse` gives only values within 32 bits, and nothing for blank text |
| Text.TryParseIntHasSplit | SwitchController/SettingsWindow.xaml.cs:52 | a parsed value is the value of an optionally signed digit string with only white space around it |
| Text.TryParseIntOfSplit | SwitchController/SettingsWindow.xaml.cs:52 | an optionally signed digit string with only white space around it parses to its value when that fits 32 bits, and fails otherwise |
| Text.NumberSplitUnique | SwitchController/SettingsWindow.xaml.cs:52 | there is at most one way to split a text into white space, a run that neither starts nor ends with white space, and white space |
| Text.ParseShow | SwitchController/MainWindow.xaml.cs:86-87 | a non-negative `int` printed by `ToString` parses back to itself |
| Text.ContainsIffInfix | SwitchController/MainWindow.xaml.cs:502 | `Contains` holds iff the needle occurs somewhere in the text |
| Text.EqualsIgnoreCaseIsEquivalence | SwitchController/SettingsWindow.xaml.cs:80 | ordinal case-insensitive equality is reflexive, symmetric and transitive |
| Settings.ThemeIndex | SwitchController/SettingsWindow.xaml.cs:37 | "Dark" shows as 0, "Light" as 1, and every other name, null included, as 2 |
| Settings.ThemeName | SwitchController/SettingsWindow.xaml.cs:65 | index 2 saves "ZA", 1 "Light", anything else "Dark" |
| Settings.ThemeIndexAfterName | SwitchController/SettingsWindow.xaml.cs:37-65 | loading a saved index gives the index back, for 0, 1 and 2 |
| Settings.ThemeNameAfterIndex | SwitchController/SettingsWindow.xaml.cs:37-65 | saving a loaded name gives the name back iff it is "Dark", "Light" or "ZA" |
| Settings.PositiveOr | SwitchController/SettingsWindow.xaml.cs:24-33 | a positive value is shown as itself, any other as the default |
| Settings.Load | SwitchController/SettingsWindow.xaml.cs:19-39 | a null address shows 192.168.0.0; non-positive port, fps, preview, dead zone and interval show 6000, 20, 2, 8 and 15; the mode is clamped to [0, 2]; the theme "Dark" shows index 0, "Light" index 1 and anything else, a missing name included, index 2 |
| Settings.ParsePositive | SwitchController/SettingsWindow.xaml.cs:142-143 | the parsed value when it is a positive integer, else the fallback; positive whenever the fallback is |
| Settings.Save | SwitchController/SettingsWindow.xaml.cs:41-116 | a bad trimmed address is rejected before the port; a valid address with a port that does not parse or lies outside 1..65535 is rejected with the port message; if none of the nine values changed nothing is written; otherwise all nine are written and a restart is asked for iff the theme or the mode changed |
| Settings.LoadThenSave | SwitchController/SettingsWindow.xaml.cs:19-116 | opening the dialog and pressing OK re-saves every value as it was, except that the theme comes back as the name of its index |
| Settings.LoadedFormParses | SwitchController/SettingsWindow.xaml.cs:19-116 | the form shown for settings the dialog could have written trims and parses back to the stored address and port, and saving it gives back the stored values, the theme aside |
| Settings.DottedQuadTrims | SwitchController/SettingsWindow.xaml.cs:43-44 | a dotted quad is its own trimmed text |
| Settings.LoadThenSaveUnchanged | SwitchController/SettingsWindow.xaml.cs:19-116 | well-formed settings survive the untouched dialog without a write |
| Settings.LowerCaseDarkBecomesZa | SwitchController/SettingsWindow.xaml.cs:37 | a stored "dark" shows as the third theme, so the untouched dialog writes "ZA" and restarts |
| Settings.MainSave | SwitchController/MainWindow.xaml.cs:90-105 | the port is kept when it parses into 1..65535, whatever the address; the address is stored trimmed, and written to disk, only when the untrimmed text matches the pattern |
| App.Handle | SwitchController/MainWindow.xaml.cs:63-988 | no event changes the stream mode; only stick events change the sticks and only button events the buttons' timers |
| App.Step | SwitchController/MainWindow.xaml.cs:63-988 | the window as written: no event changes the stream mode, and the window's `Loaded` event runs `LoadSettings` |
| App.StepIntended | SwitchController/MainWindow.xaml.cs:63-988 | the same window with the drag start, the hold timer and the expired wait corrected |
| App.StickEventStep | SwitchController/MainWindow.xaml.cs:120-202 | a stick event never changes the connection, the screen feed or the mode, never moves the preview deadline back, and sends nothing while disconnected |
| App.ButtonEventStep | SwitchController/MainWindow.xaml.cs:804-885 | a button event never changes the connection, the screen feed, the mode or the sticks, never moves the preview deadline back, and sends nothing while disconnected |
| App.Start | SwitchController/MainWindow.xaml.cs:63-76 | the new window satisfies the invariants |
| App.LoadSettings | SwitchController/MainWindow.xaml.cs:67-88 | a stored address that is not blank is shown; a positive stored port is shown so that it parses back; nothing else changes |
| App.SaveSettings | SwitchController/MainWindow.xaml.cs:90-105 | saving changes only the stored address and port |
| App.LoadThenSaveKeepsSettings | SwitchController/MainWindow.xaml.cs:78-105 | a stored address and port that the window could have saved come back unchanged after loading and saving |
| App.StepKeepsInv | SwitchController/MainWindow.xaml.cs:608-988 | every event, in the window as written and in the corrected one, keeps the invariants: exactly one of player and image visible, the player only while streaming, every replaced polling loop cancelled, and each mode using only its own feed |
| App.ConnectWithKeepsInv | SwitchController/MainWindow.xaml.cs:385-539 | a connection attempt on a new session keeps the invariants, however an expired wait is reported |
| App.Run | SwitchController/MainWindow.xaml.cs:63-988 | the window as written over a sequence of events: the mode never changes and the preview deadline never moves back; without a click on the start button a disconnected window stays disconnected and sends nothing |
| App.RunKeepsInv | SwitchController/MainWindow.xaml.cs:608-988 | so does every sequence of events |
| App.OnlyCurrentLoopPolls | SwitchController/MainWindow.xaml.cs:677 | only the current polling loop can pass its guard |
| App.FramesLandOnVisibleImage | SwitchController/MainWindow.xaml.cs:565-709 | a frame either loop stores lands on the visible image, never behind the player |
| App.NothingSentWhileDisconnected | SwitchController/MainWindow.xaml.cs:717-797 | while disconnected no event other than a new connection attempt sends anything or connects |
| App.PreviewDeadlineNeverMovesBack | SwitchController/MainWindow.xaml.cs:548-562 | no event moves the preview deadline back |

## Left out

- Sockets, the wire protocol, the title query, screen grabs and the media
  player are not modelled. Their results are inputs (`Attempt`, `Fetch`,
  frames, `playError`).
- The commands are abstract values. A send that throws is not modelled;
  in the source such a throw escapes a fire-and-forget task.
- The 5 s race is reduced to its outcome, `WaitExpired`.
- Concurrency is not modelled. Each pass of a polling or preview loop, and
  each hold-timer firing, is one event applied in order. The frame pacing
  (`Task.Delay`) and the 150 ms back-off are left out.
- The cancellation of an in-flight grab by the stop button is not
  modelled. Stopping disconnects, so the next pass of the loop fails its
  guard.
- `AlreadyConnected` is not modelled as an outcome: the start button
  always creates a fresh socket. `Connect` still handles a live socket.
- The screenshot's check of `SOUR.IsCancellationRequested` is not
  modelled. `Source` is replaced right after it is cancelled, so that check
  is never true.
- A port text that does not parse makes `int.Parse` throw in the start
  button's handler. That crash is not modelled, and the start event always
  proceeds.
- `.NET` regex `\d` also matches non-ASCII digits, and `OrdinalIgnoreCase`
  folds non-ASCII letters. The model uses ASCII digits and ASCII case
  folding.
- `int.TryParse` also accepts trailing `\0` characters; the model does not.
- Floating-point rounding is not modelled: geometry uses exact reals.
- Animations, the 140 ms ease-out and dispatcher marshalling are not
  modelled. The knob is centred when the return animation's `Completed`
  event arrives.
- A negative radius (a thumb wider than its widget) is allowed. The
  clamp's containment and direction guarantees are stated only for a
  non-negative radius.
- `SizeChanged` registers a new handler on every `Loaded`. Only one
  handler is modelled.
- The initial texts and button states come from the markup, which is not
  part of this model. It is assumed that the frame image starts visible and
  the player hidden.
- The stream mode, RTSP cache, frame rate and other settings are read at
  start-up and fixed for the session. Changing the mode restarts the app.
  The preview frame rate and the dialog's fps, preview, dead-zone and
  interval values are not used by the main window's logic modelled here.
- The settings dialog's `btnSettings_Click` refresh, `Reset_Click`,
  `RestartApp` process spawning and `Settings.Default.Save()` persistence
  are not modelled. The restart is an output flag, and persistence is the
  `persisted` flag of `Settings.MainSave`.
- The title bar, minimise/close, `FindAncestor`, the text-changed handlers
  (whose bodies have no effect) and `App.xaml.cs` are left out; they are
  WPF plumbing.
- App.NothingSentWhileDisconnected: excludes the start button's event,
  which begins a new session and may connect.
- App.Step: its own contract states only that the mode is constant and
  what the `Loaded` event does. The window's behaviour is stated by the
  members it calls and by the `App` lemmas.
- App.Run: runs the window as written only. The corrected window is
  covered one step at a time, by `App.StepIntended` and
  `App.StepKeepsInv`.
- Text.Trim and Text.TryParseInt: the complete description of each result
  is in the lemmas listed next to them, not in the functions' own
  contracts.
- StickInput.GestureClicksIffTap: the gesture starts with the drag start as
  written. The tap decision reads only the gesture's distance and
  duration, and the two drag starts set both alike.

## Findings

| source | as written | input that shows it | evidently intended | confidence | as-written member | corrected member |
|---|---|---|---|---|---|---|
| SwitchController/MainWindow.xaml.cs:143-147 | `DragStarted` restarts the stopwatch but keeps `_leftLastSendMs`, so the throttle compares a fresh stopwatch with the previous gesture's last send | a gesture that last sent at 3000 ms, then a new gesture whose move at 500 ms is outside the dead zone: nothing is sent | the last-send time restarts with the stopwatch, as in `Loaded` | medium, not executed | StickInput.DragStartedAsWritten | StickInput.DragStarted |
| SwitchController/MainWindow.xaml.cs:432-438 | an expired 5 s wait throws `TimeoutException`, which is not an `OperationCanceledException` and reaches the generic branch | a console that does not answer within 5 s: the log reads "连接异常" with "连接等待被取消。" | the timeout branch, "连接超时", which the code comments announce | medium, not executed | Connection.ConnectAsWritten | Connection.Connect |
| SwitchController/MainWindow.xaml.cs:833-843 | the 400 ms hold timer checks only `isHolding`, not the press's own token | press A, release A, press B within 400 ms: A's timer sends Hold A after Release A | the timer holds only while its own press is held, as `holdToken` suggests | high, not executed | Hold.FireAsWritten | Hold.Fire |

For each finding, the lemmas that show the two halves are:
- stale throttle: `StickInput.StaleThrottleDropsNextGesture` for the code as
  written, and `StickInput.RestartedThrottleSendsFirstMove` for the fix;
- expired wait: `Connection.ExpiredWaitIsNotReportedAsTimeout` and
  `Connection.FailedAttemptEndsDisconnected`;
- hold timer: `Hold.StaleTimerHoldsReleasedButton` and
  `Hold.ReleasedPressNeverHolds`.

`App.Step` and `Connection.StartClick` run the members as written.
`App.StepIntended` and `Connection.StartClickIntended` run the corrected
ones, and `App.StepKeepsInv` holds for both.

=== FILE: app.dfy ===
/** The main window as one state machine: every user action, timer and loop
    pass is an `Event`, and `Step` is what the window's handlers do with it.
    The invariants below are kept by every step: exactly one of the two
    screen surfaces is visible, the player only shows while streaming, each
    stream mode uses only its own strategy, and at most one polling loop is
    live. */
module App {
  import opened Wrappers
  import opened Geometry
  import opened Commands
  import opened StickInput
  import opened Window
  import Preview
  import Hold
  import Connection
  import Settings
  import Ipv4
  import Text

  datatype App = App(
    win: W,
    left: StickState,
    right: StickState,
    hold: Hold.HoldState,
    ipText: string,            // `txtIpAddress.Text`
    portText: string,          // `txtPort.Text`
    savedIp: Option<string>,   // `Settings.Default.SwitchIP`
    savedPort: int)            // `Settings.Default.SwitchPort`

  datatype Event =
    | WindowLoaded
    | TextsEdited(ip: string, port: string)
    | StartClicked(attempt: Connection.Attempt, playError: Option<string>)
    | StopClicked
    | CaptureClicked(path: Option<string>, fetch: Fetch, writeError: Option<string>)
    | RescueClicked(playError: Option<string>)
    | ButtonPressed(name: string)
    | ButtonReleased(name: string)
    | HoldTimerFired(timer: nat)
    | StickLoaded(side: Side, width: real, height: real, thumb: real)
    | StickResized(side: Side, width: real, height: real, thumb: real, len: real)
    | DragStarted(side: Side)
    | Dragged(side: Side, dx: real, dy: real, len: real)
    | DragCompleted(side: Side)
    | StickReturned(side: Side)
    | ScreenLoopPass(loop: nat, frame: seq<Byte>)
    | PreviewLoopPass(frame: seq<Byte>)
    | Closing

  function Stick(a: App, side: Side): (s: StickState)
    ensures side == LeftStick ==> s == a.left
    ensures side == RightStick ==> s == a.right
  {
    if side == LeftStick then a.left else a.right
  }

  function WithStick(a: App, side: Side, s: StickState): (a': App)
    ensures Stick(a', side) == s
    ensures side == LeftStick ==> a'.right == a.right
    ensures side == RightStick ==> a'.left == a.left
    ensures a'.win == a.win && a'.hold == a.hold
  {
    if side == LeftStick then a.(left := s) else a.(right := s)
  }

  /** Which events can happen in `a`: the rescue button is only shown in
      stream mode 2, a timer or loop must exist, and a length must be the
      length of the offset it comes with. */
  predicate Possible(a: App, e: Event) {
    match e
    case RescueClicked(_) => a.win.mode == RtspMode
    case HoldTimerFired(i) => i < |a.hold.timers|
    case StickResized(side, _, _, _, len) => IsLength(Stick(a, side).knob, len)
    case Dragged(side, dx, dy, len) => IsLength(Add(Stick(a, side).knob, Vec(dx, dy)), len)
    case ScreenLoopPass(i, _) => i < |a.win.video.slots|
    case _ => true
  }

  /** The main window's `SaveSettings`, run after a connection attempt and
      when the window closes. */
  function SaveSettings(a: App): (a': App)
    ensures a'.win == a.win && a'.left == a.left && a'.right == a.right && a'.hold == a.hold
  {
    var r := Settings.MainSave(a.ipText, a.portText, a.savedIp, a.savedPort);
    a.(savedIp := r.switchIp, savedPort := r.switchPort)
  }

  /** Run a stick operation and send what it asks for. */
  function StickStep(a: App, side: Side, r: (StickState, seq<Command>), now: int): (a': App)
    requires StickRequests(r.1)
    ensures a'.win.link == a.win.link && a'.win.video == a.win.video && a'.win.mode == a.win.mode
    ensures a'.win.preview.until >= a.win.preview.until
    ensures a.win.mode != Preview.PreviewMode ==> a'.win.preview == a.win.preview
    ensures a'.hold == a.hold && Stick(a', side) == r.0
    ensures !a.win.link.connected ==> a'.win.sent == a.win.sent
  {
    SendAllDisconnected(a.win, r.1, now);
    WithStick(a, side, r.0).(win := SendAll(a.win, r.1, now))
  }

  /** Send what the button model asks for. */
  function HoldStep(a: App, r: (Hold.HoldState, seq<Command>), now: int): (a': App)
    requires forall i :: 0 <= i < |r.1| ==> Gated(r.1[i])
    ensures a'.win.link == a.win.link && a'.win.video == a.win.video && a'.win.mode == a.win.mode
    ensures a'.win.preview.until >= a.win.preview.until
    ensures a.win.mode != Preview.PreviewMode ==> a'.win.preview == a.win.preview
    ensures !a.win.link.connected ==> a'.win.sent == a.win.sent
  {
    SendAllDisconnected(a.win, r.1, now);
    a.(hold := r.0, win := SendAll(a.win, r.1, now))
  }

  /** The events of the two sticks. */
  predicate StickEvent(e: Event) {
    e.StickLoaded? || e.StickResized? || e.DragStarted? || e.Dragged? || e.DragCompleted? || e.StickReturned?
  }

  /** The events of the console buttons. */
  predicate ButtonEvent(e: Event) {
    e.ButtonPressed? || e.ButtonReleased? || e.HoldTimerFired?
  }

  /** What the stick handlers do with a stick event; `intended` restarts
      the throttle on a drag start. */
  function StickEventStep(a: App, e: Event, now: int, intended: bool): (a': App)
    requires StickEvent(e) && Possible(a, e)
    ensures a'.win.link == a.win.link && a'.win.video == a.win.video && a'.win.mode == a.win.mode
    ensures a'.win.preview.until >= a.win.preview.until
    ensures a.win.mode != Preview.PreviewMode ==> a'.win.preview == a.win.preview
    ensures !a.win.link.connected ==> a'.win.sent == a.win.sent
    ensures a'.left.side == a.left.side && a'.right.side == a.right.side
  {
    match e
    case StickLoaded(side, w, h, thumb) => WithStick(a, side, Loaded(Stick(a, side), w, h, thumb, now))
    case StickResized(side, w, h, thumb, len) =>
      StickStep(a, side, SizeChanged(Stick(a, side), w, h, thumb, len, now), now)
    case DragStarted(side) =>
      var s := Stick(a, side);
      WithStick(a, side, if intended then StickInput.DragStarted(s, now) else DragStartedAsWritten(s, now))
    case Dragged(side, dx, dy, len) => StickStep(a, side, DragDelta(Stick(a, side), dx, dy, len, now), now)
    case DragCompleted(side) => StickStep(a, side, StickInput.DragCompleted(Stick(a, side), now), now)
    case StickReturned(side) => StickStep(a, side, ReturnAnimationDone(Stick(a, side)), now)
  }

  /** What the mouse handlers of the console buttons, and the hold timers,
      do with a button event; `intended` makes a timer watch its own
      token. */
  function ButtonEventStep(a: App, e: Event, now: int, intended: bool): (a': App)
    requires ButtonEvent(e) && Possible(a, e)
    ensures a'.win.link == a.win.link && a'.win.video == a.win.video && a'.win.mode == a.win.mode
    ensures a'.win.preview.until >= a.win.preview.until
    ensures a.win.mode != Preview.PreviewMode ==> a'.win.preview == a.win.preview
    ensures !a.win.link.connected ==> a'.win.sent == a.win.sent
    ensures a'.left == a.left && a'.right == a.right
  {
    match e
    case ButtonPressed(name) => HoldStep(a, Hold.ButtonDown(a.hold, name), now)
    case ButtonReleased(name) => HoldStep(a, Hold.ButtonUp(a.hold, name), now)
    case HoldTimerFired(i) =>
      HoldStep(a, if intended then Hold.Fire(a.hold, i) else Hold.FireAsWritten(a.hold, i), now)
  }

  /** What the window does with one event at time `now`. With `intended`
      false this is the program as written; with `intended` true a drag
      start restarts the throttle, a hold timer watches its own token and
      an expired wait is reported as the timeout. */
  function Handle(a: App, e: Event, now: int, intended: bool): (a': App)
    requires Possible(a, e)
    ensures a'.win.mode == a.win.mode
    ensures !StickEvent(e) ==> a'.left == a.left && a'.right == a.right
    ensures !ButtonEvent(e) ==> a'.hold == a.hold
  {
    if StickEvent(e) then StickEventStep(a, e, now, intended)
    else if ButtonEvent(e) then ButtonEventStep(a, e, now, intended)
    else match e
      case WindowLoaded => LoadSettings(a)
      case TextsEdited(ip, port) => a.(ipText := ip, portText := port)
      case StartClicked(attempt, playError) =>
        var w := if intended then Connection.StartClickIntended(a.win, a.ipText, attempt, now, playError)
                 else Connection.StartClick(a.win, a.ipText, attempt, now, playError);
        SaveSettings(a.(win := w))
      case StopClicked => a.(win := StopClick(a.win))
      case CaptureClicked(path, fetch, writeError) => a.(win := Capture(a.win, path, fetch, writeError))
      case RescueClicked(playError) => a.(win := Rescue(a.win, a.ipText, playError))
      case ScreenLoopPass(i, frame) => a.(win := ScreenTick(a.win, i, frame))
      case PreviewLoopPass(frame) => a.(win := PreviewTick(a.win, now, frame))
      case Closing => SaveSettings(a)
  }

  /** The window as written. */
  function Step(a: App, e: Event, now: int): (a': App)
    requires Possible(a, e)
    ensures a'.win.mode == a.win.mode
    ensures e.WindowLoaded? ==> a' == LoadSettings(a)
  {
    Handle(a, e, now, false)
  }

  /** The window with the three corrections of the findings. */
  function StepIntended(a: App, e: Event, now: int): (a': App)
    requires Possible(a, e)
    ensures a'.win.mode == a.win.mode
    ensures e.WindowLoaded? ==> a' == LoadSettings(a)
  {
    Handle(a, e, now, true)
  }

  // ---------------------------------------------------------------------------
  // Invariants
  // ---------------------------------------------------------------------------

  /** Exactly one of the player and the frame image is visible, and the
      player only while streaming. */
  predicate SurfacesOk(v: Video) {
    v.vlcVisible == !v.imageVisible && (v.vlcVisible ==> v.rtspStreaming)
  }

  /** Every polling loop but the current one has been cancelled. */
  predicate OneLiveLoop(v: Video) {
    && (v.current.Some? ==> v.current.value < |v.slots| && !v.slots[v.current.value].cancelled)
    && forall i :: 0 <= i < |v.slots| && v.current != Some(i) ==> v.slots[i].cancelled
  }

  /** Each stream mode uses only its own strategy (polling appears in mode
      2 only through the rescue button). */
  predicate ModeOk(w: W) {
    && (w.video.rtspStreaming || w.video.playing ==> w.mode == RtspMode)
    && (w.mode == Preview.PreviewMode ==> |w.video.slots| == 0)
    && (w.mode != Preview.PreviewMode ==> w.preview.loops == 0 && !w.preview.running)
  }

  predicate Inv(a: App) {
    SurfacesOk(a.win.video) && OneLiveLoop(a.win.video) && ModeOk(a.win)
    && a.left.side == LeftStick && a.right.side == RightStick
  }

  /** The window as constructed, before it is loaded: the text boxes hold
      their markup texts. */
  function Start(mode: int, rtspPort: nat, m: Markup, ipBox: string, portBox: string,
                 ip: Option<string>, port: int): (a: App)
    ensures Inv(a) && a.savedIp == ip && a.savedPort == port
  {
    App(Window.Init(mode, rtspPort, m), StickInput.Init(LeftStick), StickInput.Init(RightStick), Hold.NoHold,
        ipBox, portBox, ip, port)
  }

  /** The main window's `LoadSettings`, run when it is loaded: show the
      stored address unless it is blank, and the stored port if positive. */
  function LoadSettings(a: App): (a': App)
    ensures a.savedIp.Some? && !Text.IsBlank(a.savedIp.value) ==> a'.ipText == a.savedIp.value
    ensures !(a.savedIp.Some? && !Text.IsBlank(a.savedIp.value)) ==> a'.ipText == a.ipText
    ensures a.savedPort > 0 ==> Text.TryParseInt(a'.portText) == Some(a.savedPort) || a.savedPort > Text.Int32Max
    ensures a.savedPort <= 0 ==> a'.portText == a.portText
    ensures a' == a.(ipText := a'.ipText, portText := a'.portText)
  {
    var ipText := if a.savedIp.Some? && !Text.IsBlank(a.savedIp.value) then a.savedIp.value else a.ipText;
    if a.savedPort > 0 then
      Text.ParseShow(a.savedPort);
      a.(ipText := ipText, portText := Text.Show(a.savedPort))
    else a.(ipText := ipText)
  }

  /** Stored settings that the main window could have saved come back
      unchanged when the window loads them and saves again. */
  lemma LoadThenSaveKeepsSettings(a: App)
    requires a.savedIp.Some? && Ipv4.IsDottedQuad(a.savedIp.value) && Settings.PortInRange(a.savedPort)
    ensures var a' := SaveSettings(LoadSettings(a));
      a'.savedIp == a.savedIp && a'.savedPort == a.savedPort
  {
    var ip := a.savedIp.value;
    Ipv4.DottedQuadChars(ip);
    assert ip[0] == '.' || Text.IsAsciiDigit(ip[0]);
    Text.ParseShow(a.savedPort);
    Ipv4.IpTextAcceptedIffRegex(ip);
    Settings.DottedQuadTrims(ip);
  }

  lemma StartScreenStreamKeepsOneLiveLoop(v: Video, mode: int, force: bool)
    requires OneLiveLoop(v)
    ensures OneLiveLoop(StartScreenStream(v, mode, force))
  {
    var v' := StartScreenStream(v, mode, force);
    if force || mode == PollingMode {
      forall i | 0 <= i < |v'.slots| && v'.current != Some(i)
        ensures v'.slots[i].cancelled
      {
        assert i < |v.slots|;
      }
    }
  }

  /** A connection attempt on a new session keeps the invariants, however
      the expired wait is reported. */
  lemma ConnectWithKeepsInv(a: App, waitFault: Connection.Fault, attempt: Connection.Attempt, now: int,
                            playError: Option<string>)
    requires Inv(a)
    ensures Inv(a.(win := Connection.ConnectWith(Connection.Session(a.win), waitFault, a.ipText, attempt, now, playError)))
  {
    match attempt
    case Identified(id) => IdentifiedKeepsInv(a, waitFault, id, now, playError);
    case _ =>
  }

  lemma IdentifiedKeepsInv(a: App, waitFault: Connection.Fault, id: string, now: int, playError: Option<string>)
    requires Inv(a)
    ensures Inv(a.(win := Connection.ConnectWith(Connection.Session(a.win), waitFault, a.ipText,
                                                 Connection.Identified(id), now, playError)))
  {
    var session := Connection.Session(a.win);
    var locked := session.(ui := session.ui.(inputsEnabled := false));
    var up := SetLog(Indicate(locked.(link := locked.link.(connected := true)), Green, "已连接"), "Switch | 正在连接...");
    var logged := SetLog(up, Connection.SuccessLog(id));
    StartScreenStreamKeepsOneLiveLoop(logged.video, logged.mode, false);
  }

  lemma ConnectKeepsInv(a: App, attempt: Connection.Attempt, now: int, playError: Option<string>, intended: bool)
    requires Inv(a)
    ensures Inv(a.(win := if intended then Connection.StartClickIntended(a.win, a.ipText, attempt, now, playError)
                          else Connection.StartClick(a.win, a.ipText, attempt, now, playError)))
  {
    var waitFault := if intended then Connection.WaitFault() else Connection.WaitFaultAsWritten();
    ConnectWithKeepsInv(a, waitFault, attempt, now, playError);
  }

  lemma RescueKeepsInv(a: App, playError: Option<string>)
    requires Inv(a) && a.win.mode == RtspMode
    ensures Inv(a.(win := Rescue(a.win, a.ipText, playError)))
  {
    var v := a.win.video;
    if v.rtspStreaming {
      var v1 := v.(rtspStreaming := false, vlcVisible := false, imageVisible := true);
      StartScreenStreamKeepsOneLiveLoop(v1, a.win.mode, true);
    }
  }

  lemma ScreenTickKeepsInv(a: App, i: nat, frame: seq<Byte>)
    requires Inv(a) && i < |a.win.video.slots|
    ensures Inv(a.(win := ScreenTick(a.win, i, frame)))
  {
    var v' := ScreenTick(a.win, i, frame).video;
    forall j | 0 <= j < |v'.slots| && v'.current != Some(j)
      ensures v'.slots[j].cancelled
    {
      assert v'.slots[j].cancelled == a.win.video.slots[j].cancelled;
    }
  }

  /** A step that leaves the screen feed, the mode and the sticks' sides
      alone, and the preview too outside mode 1, keeps the invariants. */
  lemma SameFeedKeepsInv(a: App, a': App)
    requires Inv(a)
    requires a'.win.video == a.win.video && a'.win.mode == a.win.mode
    requires a.win.mode != Preview.PreviewMode ==> a'.win.preview == a.win.preview
    requires a'.left.side == a.left.side && a'.right.side == a.right.side
    ensures Inv(a')
  {
  }

  /** Every step keeps the invariants, as written and corrected alike. */
  lemma StepKeepsInv(a: App, e: Event, now: int, intended: bool)
    requires Inv(a) && Possible(a, e)
    ensures Inv(Handle(a, e, now, intended))
  {
    if StickEvent(e) {
      SameFeedKeepsInv(a, StickEventStep(a, e, now, intended));
    } else if ButtonEvent(e) {
      SameFeedKeepsInv(a, ButtonEventStep(a, e, now, intended));
    } else {
      match e
      case StartClicked(attempt, playError) => ConnectKeepsInv(a, attempt, now, playError, intended);
      case RescueClicked(playError) => RescueKeepsInv(a, playError);
      case ScreenLoopPass(i, frame) => ScreenTickKeepsInv(a, i, frame);
      case PreviewLoopPass(frame) => SameFeedKeepsInv(a, Handle(a, e, now, intended));
      case StopClicked =>
      case CaptureClicked(_, _, _) => SameFeedKeepsInv(a, Handle(a, e, now, intended));
      case WindowLoaded => SameFeedKeepsInv(a, LoadSettings(a));
      case TextsEdited(_, _) =>
      case Closing =>
    }
  }

  /** Apply the possible events in order, one millisecond time stamp each;
      an impossible event is skipped. */
  function Run(a: App, events: seq<(Event, int)>): (a': App)
    ensures a'.win.mode == a.win.mode
    // The preview deadline never moves back; without a connection attempt
    // a disconnected window stays disconnected and sends nothing.
    ensures a'.win.preview.until >= a.win.preview.until
    ensures NoStart(events) && !a.win.link.connected ==> !a'.win.link.connected && a'.win.sent == a.win.sent
    decreases |events|
  {
    if |events| == 0 then a
    else
      var (e, now) := events[0];
      var a1 := if Possible(a, e) then Step(a, e, now) else a;
      StepWithoutStart(a, e, now);
      assert NoStart(events) ==> NoStart(events[1..]);
      Run(a1, events[1..])
  }

  /** None of `events` is a click on the start button. */
  predicate NoStart(events: seq<(Event, int)>) {
    forall k :: 0 <= k < |events| ==> !events[k].0.StartClicked?
  }

  /** What one step keeps, and what one without a connection attempt keeps
      besides. */
  lemma StepWithoutStart(a: App, e: Event, now: int)
    ensures Possible(a, e) ==> Step(a, e, now).win.preview.until >= a.win.preview.until
    ensures Possible(a, e) && !e.StartClicked? && !a.win.link.connected ==>
      Step(a, e, now).win.sent == a.win.sent && !Step(a, e, now).win.link.connected
  {
    if Possible(a, e) {
      PreviewDeadlineNeverMovesBack(a, e, now);
      if !e.StartClicked? && !a.win.link.connected {
        NothingSentWhileDisconnected(a, e, now);
      }
    }
  }

  lemma {:induction false} RunKeepsInv(a: App, events: seq<(Event, int)>)
    requires Inv(a)
    ensures Inv(Run(a, events))
    decreases |events|
  {
    if |events| > 0 {
      var (e, now) := events[0];
      if Possible(a, e) {
        StepKeepsInv(a, e, now, false);
      }
      var a1 := if Possible(a, e) then Step(a, e, now) else a;
      RunKeepsInv(a1, events[1..]);
    }
  }

  // ---------------------------------------------------------------------------
  // Consequences
  // ---------------------------------------------------------------------------

  /** Only the current polling loop can pass its guard: a replaced loop
      always stops at its next pass. */
  lemma OnlyCurrentLoopPolls(a: App, i: nat)
    requires Inv(a) && i < |a.win.video.slots|
    ensures ScreenContinues(a.win, i) ==> a.win.video.current == Some(i)
  {
  }

  /** A frame any loop delivers lands on the visible frame image, never
      behind the player. */
  lemma FramesLandOnVisibleImage(a: App, e: Event, now: int)
    requires Inv(a) && Possible(a, e)
    requires e.ScreenLoopPass? || e.PreviewLoopPass?
    ensures Step(a, e, now).win.grab != a.win.grab ==> a.win.video.imageVisible
  {
  }

  /** While disconnected, nothing reaches the console except through a new
      connection attempt. */
  lemma NothingSentWhileDisconnected(a: App, e: Event, now: int)
    requires Possible(a, e) && !a.win.link.connected && !e.StartClicked?
    ensures Step(a, e, now).win.sent == a.win.sent
    ensures !Step(a, e, now).win.link.connected
  {
  }

  /** No step moves the preview deadline back: only a command raises it,
      and a connection attempt leaves it as it was. */
  lemma PreviewDeadlineNeverMovesBack(a: App, e: Event, now: int)
    requires Possible(a, e)
    ensures Step(a, e, now).win.preview.until >= a.win.preview.until
  {
  }
}

=== FILE: commands.dfy ===
/** The commands the window sends to the console, kept abstract: which
    command and its arguments, not its bytes on the wire. Also the table that
    maps the name of an on-screen button control to the console button it
    stands for. */
module Commands {
  import opened Wrappers
  import opened StickCodec

  datatype Side = LeftStick | RightStick

  datatype Button =
    | DUP | DDOWN | DLEFT | DRIGHT
    | ZL | L | MINUS | CAPTURE
    | X | Y | A | B
    | ZR | R | PLUS | HOME
    | LSTICK | RSTICK

  datatype Command =
    | Click(button: Button)
    | Hold(button: Button)
    | Release(button: Button)
    | SetStick(side: Side, x: Short, y: Short)
    | DetachController

  /** The button pressed by clicking a stick: `LSTICK` or `RSTICK`. */
  function StickButton(side: Side): (b: Button)
    ensures b == LSTICK <==> side == LeftStick
    ensures b == RSTICK <==> side == RightStick
  {
    match side
    case LeftStick => LSTICK
    case RightStick => RSTICK
  }

  /** The `switch` on the control's name in both mouse handlers; names are
      compared exactly. Any other control is not a console button. */
  function ButtonOfName(name: string): (b: Option<Button>)
    ensures b != Some(LSTICK) && b != Some(RSTICK)
  {
    match name
    case "btnUp" => Some(DUP)
    case "btnDown" => Some(DDOWN)
    case "btnLeft" => Some(DLEFT)
    case "btnRight" => Some(DRIGHT)
    case "btnZL" => Some(ZL)
    case "btnL" => Some(L)
    case "btnMinus" => Some(MINUS)
    case "btnCaptureLeft" => Some(CAPTURE)
    case "btnX" => Some(X)
    case "btnY" => Some(Y)
    case "btnA" => Some(A)
    case "btnB" => Some(B)
    case "btnZR" => Some(ZR)
    case "btnR" => Some(R)
    case "btnPlus" => Some(PLUS)
    case "btnHome" => Some(HOME)
    case _ => None
  }

  /** The control that stands for a console button; the stick buttons have
      none, they are pressed by tapping a stick. */
  function NameOfButton(b: Button): (name: Option<string>)
    ensures name.None? <==> b == LSTICK || b == RSTICK
  {
    match b
    case DUP => Some("btnUp")
    case DDOWN => Some("btnDown")
    case DLEFT => Some("btnLeft")
    case DRIGHT => Some("btnRight")
    case ZL => Some("btnZL")
    case L => Some("btnL")
    case MINUS => Some("btnMinus")
    case CAPTURE => Some("btnCaptureLeft")
    case X => Some("btnX")
    case Y => Some("btnY")
    case A => Some("btnA")
    case B => Some("btnB")
    case ZR => Some("btnZR")
    case R => Some("btnR")
    case PLUS => Some("btnPlus")
    case HOME => Some("btnHome")
    case LSTICK => None
    case RSTICK => None
  }

  /** The table is a one-to-one correspondence between the sixteen control
      names and the sixteen face, shoulder and system buttons. */
  lemma ButtonTableIsBijection(name: string, b: Button)
    ensures ButtonOfName(name) == Some(b) <==> NameOfButton(b) == Some(name)
  {
  }

  /** Hence no two names select the same button. */
  lemma ButtonOfNameInjective(n1: string, n2: string)
    requires ButtonOfName(n1).Some? && ButtonOfName(n1) == ButtonOfName(n2)
    ensures n1 == n2
  {
    ButtonTableIsBijection(n1, ButtonOfName(n1).value);
    ButtonTableIsBijection(n2, ButtonOfName(n1).value);
  }
}

=== FILE: connection.dfy ===
/** `Connect` and the start button: how each way a connection attempt can
    end shows up in the window. The attempt itself (the socket, the 5 s
    race, the title query) is an input: an `Attempt` says how far it got
    and what it threw. */
module Connection {
  import opened Wrappers
  import opened Text
  import opened Commands
  import opened Window
  import Preview

  /** What reaches a `catch` of `Connect`: an `OperationCanceledException`,
      a `SocketException` (its error-code name and message) or any other
      exception (its message). */
  datatype Fault = Cancelled | SocketFault(code: string, message: string) | OtherFault(message: string)

  /** How far an attempt got.
      - `WaitExpired`: the 5 s token fired before `Connect()` finished, so
        `Task.WhenAny` returned the cancelled delay.
      - `ConnectThrew`: `Connect()` threw; the socket is not connected.
      - `NotLive(message)`: `Connect()` returned but the socket is not
        connected (`SocketError.NotConnected` and its message).
      - `QueryThrew`: connected, and the 300 ms delay or the title query
        threw.
      - `Identified(id)`: connected, and the running title is `id`. */
  datatype Attempt =
    | WaitExpired
    | ConnectThrew(fault: Fault)
    | NotLive(message: string)
    | QueryThrew(fault: Fault)
    | Identified(id: string)

  /** The title id the console reports when no game is running. */
  const NoTitle: string := "0000000000000000"

  const WaitCancelledMessage: string := "连接等待被取消。"

  /** As written: the expired wait throws a `TimeoutException`, which is not
      an `OperationCanceledException` and lands in the generic branch. */
  function WaitFaultAsWritten(): (f: Fault)
    ensures f.OtherFault? && f.message == WaitCancelledMessage
  {
    OtherFault(WaitCancelledMessage)
  }

  /** Intended: an expired wait is the timeout the code comments announce,
      handled by the timeout branch. */
  function WaitFault(): (f: Fault)
    ensures f.Cancelled?
  {
    Cancelled
  }

  const DialogPrefix: string := "连接失败："

  /** The two Chinese system messages the socket branch shows without the
      error code: "did not respond" and "actively refused". */
  predicate KnownSocketMessage(message: string) {
    Contains(message, "未能响应") || Contains(message, "主动拒绝")
  }

  /** The dialog of the socket branch: the bare message for the two known
      Chinese system messages, otherwise the error code in front. */
  function SocketDialog(code: string, message: string): (d: string)
    // The dialog starts with the failure prefix and ends with the whole
    // system message ...
    ensures |d| >= |DialogPrefix| + |message|
    ensures d[..|DialogPrefix|] == DialogPrefix
    ensures d[|d| - |message|..] == message
    // ... and between the two shows the code exactly when the message is
    // not one of the two known ones.
    ensures KnownSocketMessage(message) <==> |d| == |DialogPrefix| + |message|
    ensures !KnownSocketMessage(message) ==> d[|DialogPrefix|..|d| - |message|] == code + " - "
  {
    if KnownSocketMessage(message) then DialogPrefix + message
    else DialogPrefix + code + " - " + message
  }

  /** The start, stop and screenshot buttons are as they were. */
  predicate ButtonsKept(w: W, w': W) {
    w'.ui.startEnabled == w.ui.startEnabled && w'.ui.stopEnabled == w.ui.stopEnabled
    && w'.ui.captureEnabled == w.ui.captureEnabled
  }

  /** The three `catch` blocks. The socket branch first detaches the
      controller if the socket is still connected (a failure of that send
      is swallowed). Every branch ends disconnected with a red indicator and
      the status "未连接". */
  function HandleFault(w: W, f: Fault): (w': W)
    ensures !w'.link.connected && w'.ui.indicator == Red && w'.ui.status == Disconnected
    ensures f.Cancelled? ==>
      && w'.ui.log == "Switch | 连接超时"
      && w'.ui.messages == w.ui.messages + ["连接失败：超过 5 秒未建立连接（超时）"]
    ensures f.SocketFault? ==>
      && w'.ui.log == "Switch | 连接失败"
      && w'.ui.messages == w.ui.messages + [SocketDialog(f.code, f.message)]
    ensures f.OtherFault? ==>
      && w'.ui.log == "Switch | 连接异常"
      && w'.ui.messages == w.ui.messages + ["连接失败：" + f.message]
    // Only the socket branch sends anything, and only on a live socket.
    ensures w'.sent == if f.SocketFault? && w.link.connected then w.sent + [DetachController] else w.sent
    ensures w'.video == w.video && w'.preview == w.preview && w'.mode == w.mode
    ensures w'.link.conSet == w.link.conSet && w'.link.sourSet == w.link.sourSet
    ensures ButtonsKept(w, w')
  {
    var down := w.(link := w.link.(connected := false));
    match f
    case Cancelled =>
      SetLog(Notify(Indicate(down, Red, Disconnected), "连接失败：超过 5 秒未建立连接（超时）"), "Switch | 连接超时")
    case SocketFault(code, message) =>
      var detached := if w.link.connected then down.(sent := w.sent + [DetachController]) else down;
      SetLog(Indicate(Notify(detached, SocketDialog(code, message)), Red, Disconnected), "Switch | 连接失败")
    case OtherFault(message) =>
      SetLog(Notify(Indicate(down, Red, Disconnected), "连接失败：" + message), "Switch | 连接异常")
  }

  /** The log line once the title is known. */
  function SuccessLog(id: string): (log: string)
    ensures id == NoTitle ==> log == "Switch | 已连接成功 | 未启动游戏"
    ensures id != NoTitle ==> log == "Switch | 已连接成功 | " + id
  {
    if id != NoTitle then "Switch | 已连接成功 | " + id else "Switch | 已连接成功 | 未启动游戏"
  }

  /** The attempt after the socket came up: show it green, then either the
      query's fault or the title and the start of the screen feed of the
      configured mode. `playError` is what the player threw, if anything. */
  function Live(w: W, ip: string, query: Attempt, now: int, playError: Option<string>): (w': W)
    requires query.QueryThrew? || query.Identified?
    ensures w'.link.connected <==> query.Identified?
    ensures w'.link.conSet == w.link.conSet && w'.link.sourSet == w.link.sourSet
    ensures ButtonsKept(w, w')
  {
    var up := SetLog(Indicate(w.(link := w.link.(connected := true)), Green, "已连接"), "Switch | 正在连接...");
    match query
    case QueryThrew(f) => HandleFault(up, f)
    case Identified(id) =>
      var logged := SetLog(up, SuccessLog(id));
      var polling := logged.(video := StartScreenStream(logged.video, logged.mode, false));
      var previewing := TriggerPreview(polling, now, ButtonPreviewMs);
      StartRtspStream(previewing, RtspUrl(ip, w.rtspPort), playError)
  }

  /** The `try` block past the early return, with its `catch` blocks: run
      the attempt on a socket that is not connected. */
  function Attempted(w: W, waitFault: Fault, ip: string, a: Attempt, now: int, playError: Option<string>): (w': W)
    ensures w'.link.connected <==> a.Identified?
    ensures w'.link.conSet == w.link.conSet && w'.link.sourSet == w.link.sourSet
    ensures ButtonsKept(w, w')
  {
    match a
    case WaitExpired => HandleFault(w, waitFault)
    case ConnectThrew(f) => HandleFault(w, f)
    case NotLive(message) => HandleFault(w, SocketFault("NotConnected", message))
    case QueryThrew(_) => Live(w, ip, a, now, playError)
    case Identified(_) => Live(w, ip, a, now, playError)
  }

  /** `Connect` with the expired wait mapped by `waitFault`: disable the
      address inputs, do nothing more on a live socket, otherwise run the
      attempt; the `finally` enables the inputs again. */
  function ConnectWith(w: W, waitFault: Fault, ip: string, a: Attempt, now: int, playError: Option<string>): (w': W)
    ensures w'.ui.inputsEnabled
    ensures w.link.connected ==> w' == w.(ui := w.ui.(inputsEnabled := true))
    ensures !w.link.connected ==> (w'.link.connected <==> a.Identified?)
    ensures w'.link.conSet == w.link.conSet && w'.link.sourSet == w.link.sourSet
    ensures ButtonsKept(w, w')
  {
    var locked := w.(ui := w.ui.(inputsEnabled := false));
    var after := if w.link.connected then locked else Attempted(locked, waitFault, ip, a, now, playError);
    after.(ui := after.ui.(inputsEnabled := true))
  }

  /** `Connect` as written: an expired wait goes to the generic branch. */
  function ConnectAsWritten(w: W, ip: string, a: Attempt, now: int, playError: Option<string>): (w': W)
    ensures w'.ui.inputsEnabled
    ensures w.link.connected ==> w' == w.(ui := w.ui.(inputsEnabled := true))
    ensures !w.link.connected ==> (w'.link.connected <==> a.Identified?)
    ensures w'.link.conSet == w.link.conSet && w'.link.sourSet == w.link.sourSet
    ensures ButtonsKept(w, w')
  {
    ConnectWith(w, WaitFaultAsWritten(), ip, a, now, playError)
  }

  /** `Connect` with the expired wait reported as the timeout. */
  function Connect(w: W, ip: string, a: Attempt, now: int, playError: Option<string>): (w': W)
    ensures w'.ui.inputsEnabled
    ensures w.link.connected ==> w' == w.(ui := w.ui.(inputsEnabled := true))
    ensures !w.link.connected ==> (w'.link.connected <==> a.Identified?)
    ensures w'.link.conSet == w.link.conSet && w'.link.sourSet == w.link.sourSet
    ensures ButtonsKept(w, w')
  {
    ConnectWith(w, WaitFault(), ip, a, now, playError)
  }

  /** Every attempt on a disconnected socket that does not identify the
      console ends disconnected, red, "未连接", with the inputs enabled; an
      expired wait reads as the timeout. */
  lemma FailedAttemptEndsDisconnected(w: W, ip: string, a: Attempt, now: int, playError: Option<string>)
    requires !w.link.connected && !a.Identified?
    ensures var w' := Connect(w, ip, a, now, playError);
      && !w'.link.connected && w'.ui.indicator == Red && w'.ui.status == Disconnected
      && w'.ui.inputsEnabled
      && (a.WaitExpired? ==> w'.ui.log == "Switch | 连接超时")
      && w'.video == w.video && w'.preview == w.preview
  {
  }

  /** An attempt that identifies the console ends connected, with the
      title (or "未启动游戏") in the log unless the player then failed; in
      mode 0 a fresh polling loop runs, in mode 1 the preview runs for at
      least two seconds. */
  lemma IdentifiedAttemptConnects(w: W, ip: string, id: string, now: int, playError: Option<string>)
    requires !w.link.connected
    ensures var w' := Connect(w, ip, Identified(id), now, playError);
      && w'.link.connected && w'.ui.inputsEnabled
      && (w.mode != RtspMode ==> w'.ui.log == SuccessLog(id) && w'.ui.indicator == Green)
      && (w.mode == PollingMode ==>
            w'.video.current == Some(|w.video.slots|) && w'.video.slots[|w.video.slots|] == Slot(false, true))
      && (w.mode == Preview.PreviewMode ==> w'.preview.running && w'.preview.until >= now + ButtonPreviewMs)
      && (w.mode == RtspMode ==> (w'.video.playing <==> playError.None?))
      && w'.sent == w.sent
  {
  }

  /** As written, a connection that never comes up within the five seconds
      is reported through the generic branch with the wait's own message,
      not as the timeout. */
  lemma ExpiredWaitIsNotReportedAsTimeout(w: W, ip: string, now: int, playError: Option<string>)
    requires !w.link.connected
    ensures var w' := ConnectAsWritten(w, ip, WaitExpired, now, playError);
      && w'.ui.log == "Switch | 连接异常"
      && w'.ui.messages == w.ui.messages + ["连接失败：" + WaitCancelledMessage]
  {
  }

  /** A fresh, unconnected socket for the address becomes the session; the
      stop and screenshot buttons are enabled and the start button
      disabled. */
  function Session(w: W): (w': W)
    ensures !w'.link.connected && w'.link.conSet && w'.link.sourSet
    ensures w'.ui.stopEnabled && w'.ui.captureEnabled && !w'.ui.startEnabled
    ensures w'.video == w.video && w'.preview == w.preview && w'.mode == w.mode && w'.sent == w.sent
  {
    var ui := w.ui.(stopEnabled := true, captureEnabled := true, startEnabled := false);
    w.(link := Link(true, false, true), ui := ui)
  }

  /** `btnStartStream_Click` as written: a new session, then `Connect` as
      written. The settings save that follows is `Settings.MainSave`. */
  function StartClick(w: W, ip: string, a: Attempt, now: int, playError: Option<string>): (w': W)
    ensures w'.link.conSet && w'.link.sourSet
    ensures w'.ui.stopEnabled && w'.ui.captureEnabled && !w'.ui.startEnabled && w'.ui.inputsEnabled
    ensures w'.link.connected <==> a.Identified?
    ensures a.WaitExpired? ==> w'.ui.log == "Switch | 连接异常"
  {
    ConnectAsWritten(Session(w), ip, a, now, playError)
  }

  /** `btnStartStream_Click` with the expired wait reported as the
      timeout. */
  function StartClickIntended(w: W, ip: string, a: Attempt, now: int, playError: Option<string>): (w': W)
    ensures w'.link.conSet && w'.link.sourSet
    ensures w'.ui.stopEnabled && w'.ui.captureEnabled && !w'.ui.startEnabled && w'.ui.inputsEnabled
    ensures w'.link.connected <==> a.Identified?
    ensures a.WaitExpired? ==> w'.ui.log == "Switch | 连接超时"
  {
    Connect(Session(w), ip, a, now, playError)
  }
}

=== FILE: geometry.dfy ===
/** Pixel geometry of a virtual stick: the knob offset from the centre, the
    clamp that keeps it inside the stick's radius, and the normalisation to a
    unit stick vector with its dead zone.

    Lengths are square roots. With no square root on `real`, every operation
    that needs the length of an offset takes it as an argument `len` together
    with the requirement `IsLength(v, len)`, which pins it to the one
    non-negative root of `x*x + y*y`. */
module Geometry {

  datatype Vec = Vec(x: real, y: real)

  const Origin: Vec := Vec(0.0, 0.0)

  /** Below this many pixels from the centre the stick reads as centred. */
  const DeadZonePx: real := 8.0

  /** A radius at or below this is treated as no radius at all. */
  const MinRadius: real := 0.0001

  function Add(a: Vec, b: Vec): Vec {
    Vec(a.x + b.x, a.y + b.y)
  }

  function Scale(v: Vec, k: real): Vec {
    Vec(v.x * k, v.y * k)
  }

  function SqLen(v: Vec): (r: real)
    ensures r >= 0.0
  {
    v.x * v.x + v.y * v.y
  }

  /** `len` is `Math.Sqrt(v.x * v.x + v.y * v.y)`. */
  predicate IsLength(v: Vec, len: real) {
    len >= 0.0 && len * len == SqLen(v)
  }

  /** `q` points the same way as `p`: on the same ray from the origin. */
  predicate SameDirection(p: Vec, q: Vec) {
    p.x * q.y == p.y * q.x && p.x * q.x + p.y * q.y >= 0.0
  }

  /** Scaling by `k` multiplies the squared length by `k * k`. */
  lemma SqLenScale(v: Vec, k: real)
    ensures SqLen(Scale(v, k)) == k * k * SqLen(v)
  {
    calc {
      SqLen(Scale(v, k));
      (v.x * k) * (v.x * k) + (v.y * k) * (v.y * k);
      k * k * (v.x * v.x) + k * k * (v.y * v.y);
    }
  }

  /** Scaling by a positive factor keeps the direction. */
  lemma ScalePositiveSameDirection(v: Vec, k: real)
    requires k > 0.0
    ensures SameDirection(v, Scale(v, k))
  {
    assert v.x * (v.y * k) == v.y * (v.x * k);
    assert v.x * (v.x * k) + v.y * (v.y * k) == k * SqLen(v);
  }

  /** Squaring is strictly monotone on the non-negative reals. */
  lemma SquareStrict(a: real, b: real)
    requires 0.0 <= a < b
    ensures a * a < b * b
  {
    assert a * (b - a) >= 0.0;
    assert b * (b - a) > 0.0;
    calc {
      a * a;
    <=
      a * b;
    <
      b * b;
    }
  }

  lemma SquareMonotone(a: real, b: real)
    requires a >= 0.0 && b >= 0.0
    ensures a < b ==> a * a < b * b
    ensures a * a <= b * b ==> a <= b
  {
    if a < b {
      SquareStrict(a, b);
    }
    if b < a {
      SquareStrict(b, a);
    }
  }

  /** A positive factor can be cancelled from both sides of `<=`. */
  lemma CancelPositive(a: real, b: real, k: real)
    requires k > 0.0
    ensures a * k <= b * k ==> a <= b
  {
    if a > b {
      assert a * k - b * k == (a - b) * k;
    }
  }

  /** The length of the knob after the clamp: unchanged inside the radius,
      the radius's magnitude outside it (a negative radius, from a stick
      narrower than its knob, mirrors the offset through the centre). */
  function ClampedLength(len: real, radius: real): (l: real)
    requires len >= 0.0
    ensures l >= 0.0
    ensures radius >= 0.0 ==> l <= radius
    ensures len <= radius ==> l == len
  {
    if len > radius && len > 0.0 then (if radius >= 0.0 then radius else -radius) else len
  }

  /** `ClampKnob` and the clamp inside `DragDelta`: an offset longer than the
      radius is rescaled by `radius / len`. */
  function ClampToRadius(p: Vec, len: real, radius: real): (q: Vec)
    requires IsLength(p, len)
    // The result's length is the clamped length.
    ensures IsLength(q, ClampedLength(len, radius))
    // Inside the radius nothing moves.
    ensures len <= radius ==> q == p
    // With a non-negative radius the knob ends up inside it ...
    ensures radius >= 0.0 ==> SqLen(q) <= radius * radius
    // ... exactly on the rim when it was outside ...
    ensures radius >= 0.0 && len > radius ==> SqLen(q) == radius * radius
    // ... and still pointing the same way.
    ensures radius >= 0.0 ==> SameDirection(p, q)
  {
    if len > radius && len > 0.0 then
      ClampOutside(p, len, radius);
      Scale(p, radius / len)
    else
      if radius >= 0.0 then SquareMonotone(len, radius); p else p
  }

  lemma ClampOutside(p: Vec, len: real, radius: real)
    requires IsLength(p, len) && len > radius && len > 0.0
    ensures var q := Scale(p, radius / len);
      && IsLength(q, ClampedLength(len, radius))
      && SqLen(q) == radius * radius
      && (radius >= 0.0 ==> SameDirection(p, q))
  {
    var q := Scale(p, radius / len);
    RescaledLength(p, len, radius);
    var l := ClampedLength(len, radius);
    assert l * l == radius * radius;
    if radius > 0.0 {
      ScalePositiveSameDirection(p, radius / len);
    } else if radius == 0.0 {
      assert q == Scale(p, 0.0);
    }
  }

  /** Rescaling an offset of length `len` by `radius / len` leaves it
      `radius` long. */
  lemma RescaledLength(p: Vec, len: real, radius: real)
    requires IsLength(p, len) && len > 0.0
    ensures SqLen(Scale(p, radius / len)) == radius * radius
  {
    var k := radius / len;
    SqLenScale(p, k);
    assert k * len == radius;
    assert k * k * (len * len) == (k * len) * (k * len);
  }

  /** Clamping twice with the same radius changes nothing the second time. */
  lemma ClampIdempotent(p: Vec, len: real, radius: real)
    requires IsLength(p, len) && radius >= 0.0
    ensures ClampToRadius(ClampToRadius(p, len, radius), ClampedLength(len, radius), radius)
         == ClampToRadius(p, len, radius)
  {
  }

  /** `UpdateNormalized*`: `(dx / r, -dy / r)`, the vertical axis flipped so
      that up is positive; `(0, 0)` for a radius at or below `MinRadius` and
      for a knob less than `DeadZonePx` from the centre (compared on squares,
      which is the same test for the non-negative length). */
  function Normalise(knob: Vec, radius: real): (n: Vec)
    ensures SqLen(knob) < DeadZonePx * DeadZonePx ==> n == Origin
    ensures radius <= MinRadius ==> n == Origin
    ensures SqLen(knob) >= DeadZonePx * DeadZonePx && radius > MinRadius ==>
      n.x * radius == knob.x && n.y * radius == -knob.y
  {
    var nx := if radius <= MinRadius then 0.0 else knob.x / radius;
    var ny := if radius <= MinRadius then 0.0 else -knob.y / radius;
    if SqLen(knob) < DeadZonePx * DeadZonePx then Origin else Vec(nx, ny)
  }

  /** A coordinate whose square is at most `r * r` lies within `[-r, r]`. */
  lemma CoordinateWithinRadius(c: real, other: real, r: real)
    requires r > 0.0 && c * c + other * other <= r * r
    ensures -r <= c <= r
  {
    var m := if c >= 0.0 then c else -c;
    assert m * m == c * c;
    SquareMonotone(m, r);
  }

  /** A factor that does not grow a positive `k` is at most one. */
  lemma AtMostOne(a: real, k: real)
    requires k > 0.0 && a * k <= k
    ensures a <= 1.0
  {
    assert a * k <= 1.0 * k;
    CancelPositive(a, 1.0, k);
  }

  /** For a knob inside the radius the normalised vector lies in the unit
      disc, so each component lies in `[-1, 1]`. */
  lemma NormaliseInUnitDisc(knob: Vec, radius: real)
    ensures var n := Normalise(knob, radius);
      SqLen(knob) <= radius * radius ==>
        -1.0 <= n.x <= 1.0 && -1.0 <= n.y <= 1.0 && SqLen(n) <= 1.0
  {
    var n := Normalise(knob, radius);
    if n != Origin && SqLen(knob) <= radius * radius {
      assert radius > 0.0;
      var k := radius * radius;
      SquareStrict(0.0, radius);
      assert SqLen(n) * k == SqLen(knob) by {
        assert (n.x * radius) * (n.x * radius) == knob.x * knob.x;
        assert (n.y * radius) * (n.y * radius) == knob.y * knob.y;
      }
      AtMostOne(SqLen(n), k);
      assert n.x * n.x + n.y * n.y <= 1.0 * 1.0;
      CoordinateWithinRadius(n.x, n.y, 1.0);
      CoordinateWithinRadius(n.y, n.x, 1.0);
    }
  }

  /** The stick radius a widget of size `w` x `h` leaves for a knob `thumb`
      wide: half of the smaller side minus the knob. */
  function Radius(w: real, h: real, thumb: real): (r: real)
    ensures 2.0 * r + thumb <= w && 2.0 * r + thumb <= h
    ensures 2.0 * r + thumb == w || 2.0 * r + thumb == h
  {
    ((if w <= h then w else h) - thumb) / 2.0
  }
}

=== FILE: hold.dfy ===
/** The on-screen console buttons: pressing one clicks it at once and
    starts a 400 ms timer after which, if a button is still held, the
    button is held down on the console; releasing it cancels the current
    hold token and releases the button.

    Each press leaves a timer, identified by its position in `timers`. When
    a timer fires is the caller's business: firing is an event of its own.
    Operations return the new state and the commands they ask to send. */
module Hold {
  import opened Wrappers
  import opened Commands

  /** A press's timer: its button, whether the hold token created with it
      has been cancelled, and whether it has fired. */
  datatype Timer = Timer(button: Button, cancelled: bool, fired: bool)

  /** `isHolding`, and the timers in the order of their presses; the last one
      belongs to the current `holdToken`. */
  datatype HoldState = HoldState(holding: bool, timers: seq<Timer>)

  const NoHold: HoldState := HoldState(false, [])

  /** `Btn_PreviewMouseLeftButtonDown` on the control named `name`. */
  function ButtonDown(h: HoldState, name: string): (r: (HoldState, seq<Command>))
    ensures ButtonOfName(name).None? ==> r == (h, [])
    ensures ButtonOfName(name).Some? ==>
      var b := ButtonOfName(name).value;
      && r.0.holding
      && r.0.timers == h.timers + [Timer(b, false, false)]
      && r.1 == [Click(b)]
  {
    match ButtonOfName(name)
    case None => (h, [])
    case Some(b) => (HoldState(true, h.timers + [Timer(b, false, false)]), [Click(b)])
  }

  /** `Btn_PreviewMouseLeftButtonUp` on the control named `name`: the
      current token (the latest press's) is cancelled, whichever button it
      was for. */
  function ButtonUp(h: HoldState, name: string): (r: (HoldState, seq<Command>))
    ensures ButtonOfName(name).None? ==> r == (h, [])
    ensures ButtonOfName(name).Some? ==>
      && !r.0.holding
      && |r.0.timers| == |h.timers|
      && (|h.timers| > 0 ==> r.0.timers[|h.timers| - 1] == h.timers[|h.timers| - 1].(cancelled := true))
      && (forall i :: 0 <= i < |h.timers| - 1 ==> r.0.timers[i] == h.timers[i])
      && r.1 == [Release(ButtonOfName(name).value)]
  {
    match ButtonOfName(name)
    case None => (h, [])
    case Some(b) =>
      var n := |h.timers|;
      var timers := if n == 0 then [] else h.timers[n - 1 := h.timers[n - 1].(cancelled := true)];
      (HoldState(false, timers), [Release(b)])
  }

  /** Timer `i` fires, as written: it looks only at `isHolding`. */
  function FireAsWritten(h: HoldState, i: nat): (r: (HoldState, seq<Command>))
    requires i < |h.timers|
    ensures r.1 == (if !h.timers[i].fired && h.holding then [Hold(h.timers[i].button)] else [])
    ensures r.0.holding == h.holding && |r.0.timers| == |h.timers|
    // Only this timer changes, and only in that it has fired.
    ensures r.0.timers[i] == h.timers[i].(fired := true)
    ensures forall j :: 0 <= j < |h.timers| && j != i ==> r.0.timers[j] == h.timers[j]
  {
    var t := h.timers[i];
    var h' := h.(timers := h.timers[i := t.(fired := true)]);
    if !t.fired && h.holding then (h', [Hold(t.button)]) else (h', [])
  }

  /** Timer `i` fires, watching its own token: a press that was released
      before the timer ran never becomes a hold. */
  function Fire(h: HoldState, i: nat): (r: (HoldState, seq<Command>))
    requires i < |h.timers|
    ensures r.1 == (if !h.timers[i].fired && !h.timers[i].cancelled && h.holding then [Hold(h.timers[i].button)] else [])
    ensures r.0.holding == h.holding && |r.0.timers| == |h.timers|
    // Only this timer changes, and only in that it has fired.
    ensures r.0.timers[i] == h.timers[i].(fired := true)
    ensures forall j :: 0 <= j < |h.timers| && j != i ==> r.0.timers[j] == h.timers[j]
  {
    var t := h.timers[i];
    var h' := h.(timers := h.timers[i := t.(fired := true)]);
    if !t.fired && !t.cancelled && h.holding then (h', [Hold(t.button)]) else (h', [])
  }

  /** As written, pressing A, releasing it and pressing B within 400 ms lets
      A's timer hold A down after its release: A's hold comes after A's
      release, and nothing releases it again. */
  lemma StaleTimerHoldsReleasedButton()
    ensures var (h1, c1) := ButtonDown(NoHold, "btnA");
      var (h2, c2) := ButtonUp(h1, "btnA");
      var (h3, c3) := ButtonDown(h2, "btnB");
      var (h4, c4) := FireAsWritten(h3, 0);
      c1 + c2 + c3 + c4 == [Click(A), Release(A), Click(B), Hold(A)]
  {
  }

  /** The events of the button model. */
  datatype Event = PressEvent(name: string) | ReleaseEvent(name: string) | FireEvent(i: nat)

  /** The presses among `events` of a control that names a button: each
      leaves one timer. */
  function KnownPresses(events: seq<Event>): nat {
    if |events| == 0 then 0
    else (if events[0].PressEvent? && ButtonOfName(events[0].name).Some? then 1 else 0) + KnownPresses(events[1..])
  }

  /** Apply the events in order with the watching timer, `Fire`; an event
      naming a timer that does not exist does nothing. `FireAsWritten`
      leaves the same state and differs only in what it sends. */
  function Run(h: HoldState, events: seq<Event>): (r: (HoldState, seq<Command>))
    ensures |r.0.timers| >= |h.timers|
    ensures |r.0.timers| == |h.timers| + KnownPresses(events)
    decreases |events|
  {
    if |events| == 0 then (h, [])
    else
      var (h1, c1) := match events[0]
        case PressEvent(name) => ButtonDown(h, name)
        case ReleaseEvent(name) => ButtonUp(h, name)
        case FireEvent(i) => if i < |h.timers| then Fire(h, i) else (h, []);
      var (h2, c2) := Run(h1, events[1..]);
      (h2, c1 + c2)
  }

  /** A press or release of a known button: the events that set
      `isHolding`. */
  predicate Decisive(e: Event) {
    (e.PressEvent? || e.ReleaseEvent?) && ButtonOfName(e.name).Some?
  }

  /** `isHolding` after a run is decided by its last press or release of a
      known button, and is unchanged when there is none. */
  lemma {:induction false} HoldingFollowsLastPress(h: HoldState, events: seq<Event>)
    ensures (forall k :: 0 <= k < |events| ==> !Decisive(events[k])) ==> Run(h, events).0.holding == h.holding
    ensures forall k ::
      (0 <= k < |events| && Decisive(events[k]) && forall m :: k < m < |events| ==> !Decisive(events[m])) ==>
      Run(h, events).0.holding == events[k].PressEvent?
    decreases |events|
  {
    if |events| > 0 {
      var h1 := match events[0]
        case PressEvent(name) => ButtonDown(h, name).0
        case ReleaseEvent(name) => ButtonUp(h, name).0
        case FireEvent(j) => if j < |h.timers| then Fire(h, j).0 else h;
      var rest := events[1..];
      assert Run(h, events).0 == Run(h1, rest).0;
      HoldingFollowsLastPress(h1, rest);
      assert forall m :: 1 <= m < |events| ==> events[m] == rest[m - 1];
      assert Decisive(events[0]) ==> h1.holding == events[0].PressEvent?;
      assert !Decisive(events[0]) ==> h1.holding == h.holding;
    }
  }

  /** A cancelled token stays cancelled, whatever follows. */
  lemma {:induction false} CancelledStaysCancelled(h: HoldState, events: seq<Event>, i: nat)
    requires i < |h.timers| && h.timers[i].cancelled
    ensures i < |Run(h, events).0.timers| && Run(h, events).0.timers[i].cancelled
    decreases |events|
  {
    if |events| > 0 {
      var h1 := match events[0]
        case PressEvent(name) => ButtonDown(h, name).0
        case ReleaseEvent(name) => ButtonUp(h, name).0
        case FireEvent(j) => if j < |h.timers| then Fire(h, j).0 else h;
      assert h1.timers[i].cancelled;
      CancelledStaysCancelled(h1, events[1..], i);
    }
  }

  /** With the watching timer, a press released before its timer fires
      never becomes a hold: after press, release and any further events,
      that press's timer sends nothing. */
  lemma ReleasedPressNeverHolds(h: HoldState, pressed: string, released: string, later: seq<Event>)
    requires ButtonOfName(pressed).Some? && ButtonOfName(released).Some?
    ensures var (h1, _) := ButtonDown(h, pressed);
      var (h2, _) := ButtonUp(h1, released);
      var (h3, _) := Run(h2, later);
      var i := |h.timers|;
      i < |h3.timers| && Fire(h3, i).1 == []
  {
    var (h1, _) := ButtonDown(h, pressed);
    var (h2, _) := ButtonUp(h1, released);
    CancelledStaysCancelled(h2, later, |h.timers|);
  }
}

=== FILE: ipv4.dfy ===
/** The dotted-quad check that both the settings dialog and the main window
    apply to the console's address, written as the regular expression
    `^(?:(?:25[0-5]|2[0-4]\d|[01]?\d\d?)\.){3}(?:25[0-5]|2[0-4]\d|[01]?\d\d?)$`
    (the main window spells `\d` as `[0-9]`), next to an independent
    reference: split at the dots, four parts, each 1 to 3 digits worth at
    most 255. `\d` is taken to be an ASCII digit. */
module Ipv4 {
  import opened Text

  // ---------------------------------------------------------------------------
  // The reference definition
  // ---------------------------------------------------------------------------

  /** `s` cut at every '.', like `s.Split('.')`. */
  function SplitDots(s: string): (parts: seq<string>)
    ensures |parts| >= 1
  {
    if |s| == 0 then [""]
    else
      var rest := SplitDots(s[1..]);
      if s[0] == '.' then [""] + rest else [[s[0]] + rest[0]] + rest[1..]
  }

  predicate NoDot(s: string) {
    forall i :: 0 <= i < |s| ==> s[i] != '.'
  }

  /** One part of the address: 1 to 3 ASCII digits whose value is at most
      255; leading zeros are allowed. */
  predicate ValidOctet(t: string) {
    1 <= |t| <= 3 && AllDigits(t) && DigitsValue(t) <= 255
  }

  /** The reference: exactly four dot-separated valid octets. */
  predicate IsDottedQuad(s: string) {
    var parts := SplitDots(s);
    |parts| == 4 && ValidOctet(parts[0]) && ValidOctet(parts[1])
    && ValidOctet(parts[2]) && ValidOctet(parts[3])
  }

  // ---------------------------------------------------------------------------
  // The regular expression, alternative by alternative
  // ---------------------------------------------------------------------------

  predicate D(c: char) {
    IsAsciiDigit(c)
  }

  predicate ZeroOrOne(c: char) {
    c == '0' || c == '1'
  }

  /** `25[0-5] | 2[0-4]\d | [01]?\d\d?` with `[01]?\d\d?` unfolded into its
      four shapes `\d`, `\d\d`, `[01]\d`, `[01]\d\d`. */
  predicate OctetPattern(t: string) {
    (|t| == 3 && t[0] == '2' && t[1] == '5' && '0' <= t[2] <= '5')
    || (|t| == 3 && t[0] == '2' && '0' <= t[1] <= '4' && D(t[2]))
    || (|t| == 1 && D(t[0]))
    || (|t| == 2 && D(t[0]) && D(t[1]))
    || (|t| == 2 && ZeroOrOne(t[0]) && D(t[1]))
    || (|t| == 3 && ZeroOrOne(t[0]) && D(t[1]) && D(t[2]))
  }

  /** Four octets joined by dots: the string between `^` and `$`. */
  function Quad(a: string, b: string, c: string, d: string): string {
    a + "." + b + "." + c + "." + d
  }

  /** The part of the pattern between the anchors matches all of `s`. */
  ghost predicate PatternBody(s: string) {
    exists a, b, c, d :: s == Quad(a, b, c, d)
      && OctetPattern(a) && OctetPattern(b) && OctetPattern(c) && OctetPattern(d)
  }

  /** `Regex.IsMatch(s, pattern)`. Without `RegexOptions.Multiline` the `$`
      anchor also matches just before a final line feed. */
  ghost predicate RegexMatches(s: string) {
    PatternBody(s) || (|s| > 0 && s[|s| - 1] == '\n' && PatternBody(s[..|s| - 1]))
  }

  /** The executable check used by the model: the reference definition,
      with the same allowance for a final line feed as the `$` anchor. */
  predicate IpTextAccepted(s: string) {
    IsDottedQuad(s) || (|s| > 0 && s[|s| - 1] == '\n' && IsDottedQuad(s[..|s| - 1]))
  }

  // ---------------------------------------------------------------------------
  // Equivalence of the two
  // ---------------------------------------------------------------------------

  /** The regular expression's octet alternatives describe exactly the valid
      octets. */
  lemma OctetPatternIsValidOctet(t: string)
    ensures OctetPattern(t) <==> ValidOctet(t)
  {
    if 1 <= |t| <= 3 && AllDigits(t) {
      ShortDigitsValue(t);
    }
  }

  /** The value of a digit string of length 1 to 3, spelled out. */
  lemma ShortDigitsValue(t: string)
    requires 1 <= |t| <= 3 && AllDigits(t)
    ensures |t| == 1 ==> DigitsValue(t) == DigitValue(t[0])
    ensures |t| == 2 ==> DigitsValue(t) == DigitValue(t[0]) * 10 + DigitValue(t[1])
    ensures |t| == 3 ==> DigitsValue(t) == DigitValue(t[0]) * 100 + DigitValue(t[1]) * 10 + DigitValue(t[2])
  {
    var one := t[..1];
    assert DigitsValue(one) == DigitsValue(one[..0]) * 10 + DigitValue(t[0]);
    if |t| >= 2 {
      var two := t[..2];
      assert two[..1] == one;
      assert DigitsValue(two) == DigitsValue(one) * 10 + DigitValue(t[1]);
      if |t| == 3 {
        assert t[..2] == two;
      } else {
        assert t == two;
      }
    } else {
      assert t == one;
    }
  }

  lemma {:induction false} SplitNoDot(a: string)
    requires NoDot(a)
    ensures SplitDots(a) == [a]
  {
    if |a| > 0 {
      SplitNoDot(a[1..]);
      assert [a[0]] + a[1..] == a;
    }
  }

  lemma {:induction false} SplitAtFirstDot(a: string, b: string)
    requires NoDot(a)
    ensures SplitDots(a + "." + b) == [a] + SplitDots(b)
  {
    if |a| == 0 {
      assert a + "." + b == ['.'] + b;
      assert (a + "." + b)[1..] == b;
    } else {
      SplitAtFirstDot(a[1..], b);
      assert (a + "." + b)[1..] == a[1..] + "." + b;
      assert [a[0]] + a[1..] == a;
    }
  }

  /** Joining the parts of `SplitDots(s)` with dots. */
  function Join(parts: seq<string>): string
    requires |parts| >= 1
  {
    if |parts| == 1 then parts[0] else parts[0] + "." + Join(parts[1..])
  }

  lemma {:induction false} SplitThenJoin(s: string)
    ensures Join(SplitDots(s)) == s
  {
    if |s| > 0 {
      SplitThenJoin(s[1..]);
      var rest := SplitDots(s[1..]);
      if s[0] == '.' {
        assert SplitDots(s)[1..] == rest;
      } else {
        var p := SplitDots(s);
        assert p[0] == [s[0]] + rest[0];
        if |rest| == 1 {
        } else {
          assert p[1..] == rest[1..];
          assert Join(rest) == rest[0] + "." + Join(rest[1..]);
        }
      }
    }
  }

  /** Splitting into three or four parts and joining again with dots gives
      the string back. */
  lemma JoinN(s: string, n: nat)
    requires n == |SplitDots(s)| && (n == 3 || n == 4)
    ensures var p := SplitDots(s);
      n == 3 ==> s == p[0] + "." + p[1] + "." + p[2]
    ensures var p := SplitDots(s);
      n == 4 ==> s == p[0] + "." + p[1] + "." + p[2] + "." + p[3]
  {
    var p := SplitDots(s);
    SplitThenJoin(s);
    assert Join(p) == p[0] + "." + Join(p[1..]);
    assert Join(p[1..]) == p[1] + "." + Join(p[1..][1..]);
    assert p[1..][1..] == p[2..];
    if n == 3 {
      assert Join(p[2..]) == p[2];
    } else {
      assert Join(p[2..]) == p[2] + "." + Join(p[2..][1..]);
      assert p[2..][1..] == p[3..];
      assert Join(p[3..]) == p[3];
    }
  }

  /** The four octets of a match are exactly the four parts of the split. */
  lemma SplitQuad(a: string, b: string, c: string, d: string)
    requires NoDot(a) && NoDot(b) && NoDot(c) && NoDot(d)
    ensures SplitDots(Quad(a, b, c, d)) == [a, b, c, d]
  {
    SplitNoDot(d);
    SplitAtFirstDot(c, d);
    assert c + "." + d == c + "." + d;
    SplitAtFirstDot(b, c + "." + d);
    assert b + "." + c + "." + d == b + "." + (c + "." + d);
    SplitAtFirstDot(a, b + "." + c + "." + d);
    assert Quad(a, b, c, d) == a + "." + (b + "." + c + "." + d);
  }

  /** The pattern between the anchors and the reference accept the same
      strings. */
  lemma PatternBodyIsDottedQuad(s: string)
    ensures PatternBody(s) <==> IsDottedQuad(s)
  {
    if IsDottedQuad(s) {
      DottedQuadMatches(s);
    }
    if PatternBody(s) {
      var a, b, c, d :| s == Quad(a, b, c, d)
        && OctetPattern(a) && OctetPattern(b) && OctetPattern(c) && OctetPattern(d);
      MatchIsDottedQuad(a, b, c, d);
    }
  }

  lemma DottedQuadMatches(s: string)
    requires IsDottedQuad(s)
    ensures PatternBody(s)
  {
    var p := SplitDots(s);
    JoinN(s, 4);
    OctetPatternIsValidOctet(p[0]);
    OctetPatternIsValidOctet(p[1]);
    OctetPatternIsValidOctet(p[2]);
    OctetPatternIsValidOctet(p[3]);
    assert s == Quad(p[0], p[1], p[2], p[3]);
  }

  lemma MatchIsDottedQuad(a: string, b: string, c: string, d: string)
    requires OctetPattern(a) && OctetPattern(b) && OctetPattern(c) && OctetPattern(d)
    ensures IsDottedQuad(Quad(a, b, c, d))
  {
    SplitQuad(a, b, c, d);
    OctetPatternIsValidOctet(a);
    OctetPatternIsValidOctet(b);
    OctetPatternIsValidOctet(c);
    OctetPatternIsValidOctet(d);
  }

  /** The executable check accepts exactly what the regular expression
      accepts. */
  lemma IpTextAcceptedIffRegex(s: string)
    ensures IpTextAccepted(s) <==> RegexMatches(s)
  {
    PatternBodyIsDottedQuad(s);
    if |s| > 0 {
      PatternBodyIsDottedQuad(s[..|s| - 1]);
    }
  }

  /** A dotted quad consists of digits and dots only. */
  lemma {:induction false} DottedQuadChars(s: string)
    requires IsDottedQuad(s)
    ensures forall i :: 0 <= i < |s| ==> s[i] == '.' || IsAsciiDigit(s[i])
  {
    var p := SplitDots(s);
    JoinN(s, 4);
    assert s == p[0] + "." + p[1] + "." + p[2] + "." + p[3];
  }

  /** On a string without surrounding white space (as after `Trim`) the
      final-line-feed allowance of `$` never applies. */
  lemma TrimmedAcceptedIsDottedQuad(s: string)
    requires |s| > 0 ==> !IsWhiteSpace(s[|s| - 1])
    ensures IpTextAccepted(s) <==> IsDottedQuad(s)
  {
  }

  /** An accepted text, trimmed, is a dotted quad. */
  lemma AcceptedTrimmedIsDottedQuad(s: string)
    requires IpTextAccepted(s)
    ensures IsDottedQuad(Trim(s))
  {
    if IsDottedQuad(s) {
      DottedQuadChars(s);
      assert forall i :: 0 <= i < |s| ==> !IsWhiteSpace(s[i]);
    } else {
      var u := s[..|s| - 1];
      DottedQuadChars(u);
      TrimDropsFinalLineFeed(s);
    }
  }

  lemma TrimDropsFinalLineFeed(s: string)
    requires |s| > 0 && s[|s| - 1] == '\n'
    requires forall i :: 0 <= i < |s| - 1 ==> s[i] == '.' || IsAsciiDigit(s[i])
    requires |s| > 1
    ensures Trim(s) == s[..|s| - 1]
  {
    var u := s[..|s| - 1];
    assert LeadingWhite(s) == 0;
    assert s[0..] == s;
    assert TrailingWhite(u) == 0;
    assert s[..|s| - 1][..|s| - 1] == u;
    assert TrailingWhite(s) == 1;
  }
}

=== FILE: preview.dfy ===
/** The short screen-grab preview of stream mode 1: every command that
    reaches the console pushes a deadline forward, and one polling loop runs
    while the console is connected and the deadline lies ahead.

    Time is the millisecond clock `now`. The loop's cancellation token is
    only ever cancelled after the loop has finished, so its guard reduces to
    the connection and the deadline. */
module Preview {

  /** The only stream mode that previews. */
  const PreviewMode: int := 1

  /** `_previewUntil`, whether `_previewTask` is still running, and how many
      loops have been started. */
  datatype PreviewState = PreviewState(until: int, running: bool, loops: nat)

  const Idle: PreviewState := PreviewState(0, false, 0)

  /** `TriggerPreview(duration)`; also says whether a loop was started. */
  function Trigger(p: PreviewState, mode: int, now: int, duration: int): (r: (PreviewState, bool))
    ensures var (p', started) := r;
      && (mode != PreviewMode ==> p' == p && !started)
      && (mode == PreviewMode ==>
            // The deadline is the later of the old one and `now + duration` ...
            && p'.until >= p.until && p'.until >= now + duration
            && (p'.until == p.until || p'.until == now + duration)
            // ... and a loop starts exactly when none is running.
            && (started <==> !p.running)
            && p'.running)
      && p'.loops == (if started then p.loops + 1 else p.loops)
  {
    if mode != PreviewMode then (p, false)
    else
      var until := if now + duration > p.until then now + duration else p.until;
      if p.running then (p.(until := until), false)
      else (PreviewState(until, true, p.loops + 1), true)
  }

  /** The loop's `while` condition. */
  predicate Continues(p: PreviewState, connected: bool, now: int) {
    connected && now < p.until
  }

  /** One pass of the running loop's guard: it carries on or finishes. */
  function Tick(p: PreviewState, connected: bool, now: int): (p': PreviewState)
    ensures p'.until == p.until && p'.loops == p.loops
    ensures p'.running <==> p.running && connected && now < p.until
  {
    if p.running && !Continues(p, connected, now) then p.(running := false) else p
  }

  /** Triggers at the given times with no loop finishing in between. */
  function TriggerAll(p: PreviewState, mode: int, times: seq<int>, duration: int): (p': PreviewState)
    ensures p'.loops >= p.loops
    decreases |times|
  {
    if |times| == 0 then p
    else TriggerAll(Trigger(p, mode, times[0], duration).0, mode, times[1..], duration)
  }

  /** However many commands arrive while no loop finishes, at most one
      preview loop is started, the deadline never moves back, and every
      trigger's own deadline is covered. */
  lemma {:induction false} BurstStartsAtMostOneLoop(p: PreviewState, mode: int, times: seq<int>, duration: int)
    ensures var p' := TriggerAll(p, mode, times, duration);
      && p'.loops <= p.loops + 1
      && (p.running ==> p'.loops == p.loops)
      && p'.until >= p.until
      && (mode == PreviewMode ==> forall i :: 0 <= i < |times| ==> p'.until >= times[i] + duration)
    decreases |times|
  {
    if |times| > 0 {
      var q := Trigger(p, mode, times[0], duration).0;
      BurstStartsAtMostOneLoop(q, mode, times[1..], duration);
      var p' := TriggerAll(p, mode, times, duration);
      if mode == PreviewMode {
        forall i | 0 <= i < |times|
          ensures p'.until >= times[i] + duration
        {
          if i > 0 {
            assert times[i] == times[1..][i - 1];
          }
        }
      }
    }
  }

  /** A command at `now` keeps the preview running through `now + duration`
      while the console stays connected. */
  lemma TriggerKeepsLoopAlive(p: PreviewState, now: int, duration: int, later: int)
    requires now <= later < now + duration
    ensures var p' := Trigger(p, PreviewMode, now, duration).0;
      p'.running && Tick(p', true, later).running
  {
  }
}

=== FILE: settings.dfy ===
/** The settings dialog: how stored settings are shown in the form
    (`LoadFromSettings`), how the form is validated, compared with what is
    stored and written back (`SaveToSettings`), and the main window's own
    save of address and port when a connection is started or the window
    closes (`SaveSettings`). Persisting to disk and restarting the process are
    outputs of the model (`Written`, `restart`), not effects. */
module Settings {
  import opened Wrappers
  import opened Text
  import opened Ipv4

  /** The stored values; `None` is a null string. */
  datatype Stored = Stored(
    switchIp: Option<string>,
    switchPort: int,
    streamMode: int,
    targetFps: int,
    previewSecs: int,
    deadZonePx: int,
    sendIntervalMs: int,
    autoConnect: bool,
    themeName: Option<string>)

  /** What the dialog's controls hold. `autoConnect` is the three-state
      `IsChecked` of the check box; the indexes are `SelectedIndex` values
      (-1 when nothing is selected). */
  datatype Form = Form(
    ip: string,
    port: string,
    modeIndex: int,
    fps: string,
    previewSecs: string,
    deadZone: string,
    sendInterval: string,
    autoConnect: Option<bool>,
    themeIndex: int)

  const DefaultIp: string := "192.168.0.0"
  const DefaultPort: int := 6000
  const DefaultFps: int := 20
  const DefaultPreviewSecs: int := 2
  const DefaultDeadZone: int := 8
  const DefaultInterval: int := 15

  const IpMessage: string := "IP 地址格式不正确。"
  const PortMessage: string := "端口必须是 1~65535 的整数。"

  // ---------------------------------------------------------------------------
  // Theme names and indexes
  // ---------------------------------------------------------------------------

  /** The theme combo box index shown for a stored theme name: only the exact
      names "Dark" and "Light" select 0 and 1; every other name, null
      included, selects 2. */
  function ThemeIndex(name: Option<string>): (i: int)
    ensures 0 <= i <= 2
    ensures i == 0 <==> name == Some("Dark")
    ensures i == 1 <==> name == Some("Light")
  {
    if name == Some("Dark") then 0 else if name == Some("Light") then 1 else 2
  }

  /** The theme name saved for a combo box index: 2 is "ZA", 1 is "Light",
      anything else "Dark". */
  function ThemeName(index: int): (name: string)
    ensures name == "ZA" <==> index == 2
    ensures name == "Light" <==> index == 1
    ensures name in {"Dark", "Light", "ZA"}
  {
    if index == 2 then "ZA" else if index == 1 then "Light" else "Dark"
  }

  /** Saving an index and loading it again gives the index back, for the
      three indexes the combo box offers. */
  lemma ThemeIndexAfterName(index: int)
    requires 0 <= index <= 2
    ensures ThemeIndex(Some(ThemeName(index))) == index
  {
  }

  /** Loading a stored name and saving it again gives the name back exactly
      for the three names the dialog writes. */
  lemma ThemeNameAfterIndex(name: Option<string>)
    ensures ThemeName(ThemeIndex(name)) == name.GetOr("") <==> name in {Some("Dark"), Some("Light"), Some("ZA")}
  {
  }

  // ---------------------------------------------------------------------------
  // Loading
  // ---------------------------------------------------------------------------

  function Clamp(v: int, lo: int, hi: int): (r: int)
    requires lo <= hi
    ensures lo <= r <= hi
    ensures lo <= v <= hi ==> r == v
  {
    if v < lo then lo else if v > hi then hi else v
  }

  /** The value shown for a count setting: itself when positive, else the
      default. */
  function PositiveOr(v: int, default: nat): (r: nat)
    requires default > 0
    ensures r > 0
    ensures v > 0 ==> r == v
    ensures v <= 0 ==> r == default
  {
    if v > 0 then v else default
  }

  /** `LoadFromSettings`: fill the form from the stored values. */
  function Load(s: Stored): (f: Form)
    ensures f.ip == s.switchIp.GetOr(DefaultIp)
    ensures f.port == (if s.switchPort > 0 then Show(s.switchPort) else Show(DefaultPort))
    ensures 0 <= f.modeIndex <= 2
    ensures 0 <= s.streamMode <= 2 ==> f.modeIndex == s.streamMode
    ensures s.streamMode < 0 ==> f.modeIndex == 0
    ensures s.streamMode > 2 ==> f.modeIndex == 2
    ensures f.fps == Show(if s.targetFps > 0 then s.targetFps else DefaultFps)
    ensures f.previewSecs == Show(if s.previewSecs > 0 then s.previewSecs else DefaultPreviewSecs)
    ensures f.deadZone == Show(if s.deadZonePx > 0 then s.deadZonePx else DefaultDeadZone)
    ensures f.sendInterval == Show(if s.sendIntervalMs > 0 then s.sendIntervalMs else DefaultInterval)
    ensures f.autoConnect == Some(s.autoConnect)
    ensures 0 <= f.themeIndex <= 2
    // "Dark" shows the first theme, "Light" the second, anything else the third.
    ensures s.themeName == Some("Dark") ==> f.themeIndex == 0
    ensures s.themeName == Some("Light") ==> f.themeIndex == 1
    ensures s.themeName != Some("Dark") && s.themeName != Some("Light") ==> f.themeIndex == 2
  {
    Form(
      s.switchIp.GetOr(DefaultIp),
      Show(PositiveOr(s.switchPort, DefaultPort)),
      Clamp(s.streamMode, 0, 2),
      Show(PositiveOr(s.targetFps, DefaultFps)),
      Show(PositiveOr(s.previewSecs, DefaultPreviewSecs)),
      Show(PositiveOr(s.deadZonePx, DefaultDeadZone)),
      Show(PositiveOr(s.sendIntervalMs, DefaultInterval)),
      Some(s.autoConnect),
      ThemeIndex(s.themeName))
  }

  // ---------------------------------------------------------------------------
  // Saving
  // ---------------------------------------------------------------------------

  /** `ParsePositive`: the parsed value when it is a positive integer, else
      the fallback. */
  function ParsePositive(txt: string, fallback: int): (r: int)
    ensures fallback > 0 ==> r > 0
    ensures r == fallback || (TryParseInt(txt) == Some(r) && r > 0)
    ensures (match TryParseInt(txt) case Some(v) => v > 0 case None => false) ==> TryParseInt(txt) == Some(r)
  {
    match TryParseInt(txt)
    case Some(v) => if v > 0 then v else fallback
    case None => fallback
  }

  /** A port the dialog accepts. */
  predicate PortInRange(p: int) {
    1 <= p <= 65535
  }

  /** The outcome of `SaveToSettings`. `Rejected` is the `false` return with
      its warning; `Unchanged` and `Written` both return `true`. */
  datatype SaveOutcome =
    | Rejected(message: string)
    | Unchanged
    | Written(settings: Stored, restart: bool)
  {
    predicate Accepted() {
      !Rejected?
    }
  }

  /** The nine new values the dialog would store, once the address and port
      have been accepted. */
  function NewValues(f: Form, ip: string, port: int): Stored {
    Stored(
      Some(ip),
      port,
      f.modeIndex,
      ParsePositive(f.fps, DefaultFps),
      ParsePositive(f.previewSecs, DefaultPreviewSecs),
      ParsePositive(f.deadZone, DefaultDeadZone),
      ParsePositive(f.sendInterval, DefaultInterval),
      f.autoConnect == Some(true),
      Some(ThemeName(f.themeIndex)))
  }

  /** The address and the theme are compared ignoring case; a null stored
      address reads as "" and a null stored theme as "Dark". */
  predicate IpChanged(prev: Stored, n: Stored) {
    !EqualsIgnoreCase(prev.switchIp.GetOr(""), n.switchIp.GetOr(""))
  }

  predicate ThemeChanged(prev: Stored, n: Stored) {
    !EqualsIgnoreCase(prev.themeName.GetOr("Dark"), n.themeName.GetOr("Dark"))
  }

  predicate ModeChanged(prev: Stored, n: Stored) {
    prev.streamMode != n.streamMode
  }

  /** Some of the nine values differs. */
  predicate AnyChanged(prev: Stored, n: Stored) {
    IpChanged(prev, n) || prev.switchPort != n.switchPort || ModeChanged(prev, n)
    || prev.targetFps != n.targetFps || prev.previewSecs != n.previewSecs
    || prev.deadZonePx != n.deadZonePx || prev.sendIntervalMs != n.sendIntervalMs
    || prev.autoConnect != n.autoConnect || ThemeChanged(prev, n)
  }

  /** `SaveToSettings`: validate the trimmed address, then the trimmed port;
      if nothing changed return without writing; otherwise write all nine
      values and ask for a restart when the theme or the stream mode changed. */
  function Save(f: Form, prev: Stored): (r: SaveOutcome)
    ensures !IsDottedQuad(Trim(f.ip)) ==> r == Rejected(IpMessage)
    ensures IsDottedQuad(Trim(f.ip)) ==>
      (r.Rejected? <==> !(TryParseInt(Trim(f.port)).Some? && PortInRange(TryParseInt(Trim(f.port)).value)))
    ensures r.Rejected? ==> r.message in {IpMessage, PortMessage}
    ensures IsDottedQuad(Trim(f.ip)) && r.Rejected? ==> r == Rejected(PortMessage)
    ensures r.Accepted() ==> IsDottedQuad(Trim(f.ip)) && TryParseInt(Trim(f.port)).Some?
    ensures r.Written? ==>
      var n := NewValues(f, Trim(f.ip), TryParseInt(Trim(f.port)).value);
      && r.settings == n
      && AnyChanged(prev, n)
      && (r.restart <==> ThemeChanged(prev, n) || ModeChanged(prev, n))
    ensures r.Unchanged? ==> !AnyChanged(prev, NewValues(f, Trim(f.ip), TryParseInt(Trim(f.port)).value))
    ensures r.Accepted() && AnyChanged(prev, NewValues(f, Trim(f.ip), TryParseInt(Trim(f.port)).value)) ==> r.Written?
  {
    var ip := Trim(f.ip);
    var port := Trim(f.port);
    TrimmedAcceptedIsDottedQuad(ip);
    if !IpTextAccepted(ip) then Rejected(IpMessage)
    else match TryParseInt(port)
      case None => Rejected(PortMessage)
      case Some(p) =>
        if !PortInRange(p) then Rejected(PortMessage)
        else
          var n := NewValues(f, ip, p);
          if !AnyChanged(prev, n) then Unchanged
          else Written(n, ThemeChanged(prev, n) || ModeChanged(prev, n))
  }

  /** Stored values, the theme aside, that the dialog itself could have
      written and that show unaltered in the form. */
  predicate ShowsUnaltered(s: Stored) {
    && s.switchIp.Some? && IsDottedQuad(s.switchIp.value)
    && PortInRange(s.switchPort)
    && 0 <= s.streamMode <= 2
    && 0 < s.targetFps <= Int32Max && 0 < s.previewSecs <= Int32Max
    && 0 < s.deadZonePx <= Int32Max && 0 < s.sendIntervalMs <= Int32Max
  }

  predicate WellFormed(s: Stored) {
    ShowsUnaltered(s) && s.themeName in {Some("Dark"), Some("Light"), Some("ZA")}
  }

  lemma ParsePositiveShow(n: int, fallback: int)
    requires 0 < n <= Int32Max
    ensures ParsePositive(Show(n), fallback) == n
  {
    ParseShow(n);
  }

  /** Opening the dialog and pressing OK without touching anything re-saves
      every value as it was, except the theme, which comes back as the name
      of the index it was shown as: when that name differs (ignoring case)
      from the stored one, everything is written and a restart is asked for. */
  lemma LoadThenSave(s: Stored)
    requires ShowsUnaltered(s)
    ensures var shown := ThemeName(ThemeIndex(s.themeName));
      Save(Load(s), s) ==
        if EqualsIgnoreCase(s.themeName.GetOr("Dark"), shown) then Unchanged
        else Written(s.(themeName := Some(shown)), true)
  {
    var f := Load(s);
    LoadedFormParses(s);
    var shown := ThemeName(ThemeIndex(s.themeName));
    var n := NewValues(f, Trim(f.ip), s.switchPort);
    EqualsIgnoreCaseIsEquivalence(s.switchIp.value, s.switchIp.value, s.switchIp.value);
    assert !IpChanged(s, n);
  }

  /** The form of such settings passes validation and gives back the same
      values, the theme aside. */
  lemma LoadedFormParses(s: Stored)
    requires ShowsUnaltered(s)
    ensures var f := Load(s);
      && Trim(f.ip) == s.switchIp.value
      && TryParseInt(Trim(f.port)) == Some(s.switchPort)
      && NewValues(f, Trim(f.ip), s.switchPort) == s.(themeName := Some(ThemeName(ThemeIndex(s.themeName))))
  {
    var f := Load(s);
    DottedQuadTrims(s.switchIp.value);
    TrimDigits(f.port);
    ParseShow(s.switchPort);
    ParsePositiveShow(s.targetFps, DefaultFps);
    ParsePositiveShow(s.previewSecs, DefaultPreviewSecs);
    ParsePositiveShow(s.deadZonePx, DefaultDeadZone);
    ParsePositiveShow(s.sendIntervalMs, DefaultInterval);
  }

  /** A dotted quad has no white space to trim. */
  lemma DottedQuadTrims(ip: string)
    requires IsDottedQuad(ip)
    ensures Trim(ip) == ip
  {
    DottedQuadChars(ip);
    assert forall i :: 0 <= i < |ip| ==> !IsWhiteSpace(ip[i]);
  }

  /** In particular, well-formed settings survive the dialog untouched. */
  lemma LoadThenSaveUnchanged(s: Stored)
    requires WellFormed(s)
    ensures Save(Load(s), s) == Unchanged
  {
    LoadThenSave(s);
    var name := s.themeName.value;
    EqualsIgnoreCaseIsEquivalence(name, name, name);
  }

  /** A stored lower-case "dark" is shown as the third theme, so saving the
      untouched dialog writes "ZA" and restarts. */
  lemma LowerCaseDarkBecomesZa(s: Stored)
    requires ShowsUnaltered(s) && s.themeName == Some("dark")
    ensures Save(Load(s), s) == Written(s.(themeName := Some("ZA")), true)
  {
    LoadThenSave(s);
    assert UpperAscii('d') != UpperAscii('Z');
  }

  // ---------------------------------------------------------------------------
  // The main window's save
  // ---------------------------------------------------------------------------

  /** What the main window's `SaveSettings` leaves in the settings object:
      the port when it parses into range (whatever the address), and the
      trimmed address plus a write to disk only when the untrimmed address
      text matches the pattern. */
  datatype MainSaved = MainSaved(switchIp: Option<string>, switchPort: int, persisted: bool)

  function MainSave(ipText: string, portText: string, oldIp: Option<string>, oldPort: int): (r: MainSaved)
    ensures (TryParseInt(portText).Some? && PortInRange(TryParseInt(portText).value))
      ==> r.switchPort == TryParseInt(portText).value
    ensures !(TryParseInt(portText).Some? && PortInRange(TryParseInt(portText).value))
      ==> r.switchPort == oldPort
    ensures r.persisted <==> RegexMatches(ipText)
    ensures r.persisted ==> r.switchIp.Some? && IsDottedQuad(r.switchIp.value)
    ensures !r.persisted ==> r.switchIp == oldIp
  {
    var port := match TryParseInt(portText)
      case Some(p) => if PortInRange(p) then p else oldPort
      case None => oldPort;
    IpTextAcceptedIffRegex(ipText);
    if !IpTextAccepted(ipText) then MainSaved(oldIp, port, false)
    else
      AcceptedTrimmedIsDottedQuad(ipText);
      MainSaved(Some(Trim(ipText)), port, true)
  }
}

=== FILE: stick_codec.dfy ===
/** `ClampStick`: a normalised stick component becomes the signed 16-bit
    value sent to the console. The component is saturated to `[-1, 1]`,
    scaled by 32767 and rounded with `Math.Round`, whose default is
    round-half-to-even ("banker's rounding"). */
module StickCodec {

  /** C#'s `short`. */
  type Short = x: int | -0x8000 <= x <= 0x7FFF

  const StickMax: int := 32767

  /** `Math.Max(-1, Math.Min(1, v))`. */
  function Saturate(v: real): (r: real)
    ensures -1.0 <= r <= 1.0
    ensures -1.0 <= v <= 1.0 ==> r == v
    ensures v > 1.0 ==> r == 1.0
    ensures v < -1.0 ==> r == -1.0
  {
    if v > 1.0 then 1.0 else if v < -1.0 then -1.0 else v
  }

  /** The integer nearest to `v`, and on a tie the even one of the two. */
  function RoundHalfEven(v: real): (n: int)
    ensures v - 0.5 <= n as real <= v + 0.5
    ensures (n as real == v - 0.5 || n as real == v + 0.5) ==> n % 2 == 0
  {
    var f := v.Floor;
    var frac := v - f as real;
    if frac < 0.5 then f
    else if frac > 0.5 then f + 1
    else if f % 2 == 0 then f else f + 1
  }

  /** Two integers within one half of the same real are equal, unless they
      are its two neighbours on a tie, which differ in parity. */
  lemma NearestIsUnique(v: real, n: int, m: int)
    requires v - 0.5 <= n as real <= v + 0.5 && v - 0.5 <= m as real <= v + 0.5
    requires n % 2 == m % 2
    ensures n == m
  {
  }

  /** Any integer strictly within one half of `v` is its rounding. */
  lemma RoundHalfEvenUnique(v: real, n: int)
    requires v - 0.5 < n as real < v + 0.5
    ensures RoundHalfEven(v) == n
  {
  }

  /** Rounding commutes with negation (ties go to the even neighbour on both
      sides). */
  lemma RoundHalfEvenOdd(v: real)
    ensures RoundHalfEven(-v) == -RoundHalfEven(v)
  {
    var n := RoundHalfEven(v);
    var m := RoundHalfEven(-v);
    if v - 0.5 < n as real < v + 0.5 {
      RoundHalfEvenUnique(-v, -n);
    } else {
      assert n % 2 == 0;
      assert (-n) % 2 == 0;
      NearestIsUnique(-v, m, -n);
    }
  }

  /** Rounding never reverses the order of two values. */
  lemma RoundHalfEvenMonotone(a: real, b: real)
    requires a <= b
    ensures RoundHalfEven(a) <= RoundHalfEven(b)
  {
    var ra := RoundHalfEven(a);
    var rb := RoundHalfEven(b);
    assert ra <= rb + 1;
  }

  /** `ClampStick`: saturate, scale by 32767, round half to even. */
  function ClampStick(norm: real): (r: Short)
    ensures -StickMax <= r <= StickMax
    ensures norm >= 1.0 ==> r == StickMax
    ensures norm <= -1.0 ==> r == -StickMax
    ensures norm == 0.0 ==> r == 0
    // The result is a nearest integer to the saturated, scaled input.
    ensures var target := Saturate(norm) * (StickMax as real);
      target - 0.5 <= r as real <= target + 0.5
    // On a tie between two neighbours it is the even one.
    ensures var target := Saturate(norm) * (StickMax as real);
      r as real == target - 0.5 || r as real == target + 0.5 ==> r % 2 == 0
  {
    var target := Saturate(norm) * (StickMax as real);
    var n := RoundHalfEven(target);
    assert -StickMax <= n <= StickMax;
    if norm >= 1.0 then RoundHalfEvenUnique(target, StickMax); n
    else if norm <= -1.0 then RoundHalfEvenUnique(target, -StickMax); n
    else if norm == 0.0 then RoundHalfEvenUnique(target, 0); n
    else n
  }

  /** Opposite deflections give opposite stick values. */
  lemma ClampStickOdd(norm: real)
    ensures ClampStick(-norm) == -ClampStick(norm)
  {
    assert Saturate(-norm) == -Saturate(norm);
    assert Saturate(-norm) * (StickMax as real) == -(Saturate(norm) * (StickMax as real));
    RoundHalfEvenOdd(Saturate(norm) * (StickMax as real));
  }

  /** A larger deflection never gives a smaller stick value. */
  lemma ClampStickMonotone(a: real, b: real)
    requires a <= b
    ensures ClampStick(a) <= ClampStick(b)
  {
    RoundHalfEvenMonotone(Saturate(a) * (StickMax as real), Saturate(b) * (StickMax as real));
  }
}

=== FILE: stick_input.dfy ===
/** One virtual stick (the left and the right stick are the same code with
    their own fields): the knob's pixel offset, the radius it may move in,
    the stick's stopwatch, the throttle's last-send time, the largest
    distance of the current gesture and the normalised stick value.

    Time is one millisecond clock `now`; the stopwatch reads `now - swStart`.
    Every operation returns the new state and the commands it asks to send,
    in order; whether they reach the console is decided by the window's
    connection gate. Offsets whose length is needed come with it as a
    witness (see `Geometry`). */
module StickInput {
  import opened Geometry
  import opened StickCodec
  import opened Throttle
  import opened Commands

  const TapThresholdPx: real := 6.0
  const TapThresholdMs: int := 200

  datatype StickState = StickState(
    side: Side,
    loaded: bool,      // the knob transform has been picked up
    knob: Vec,         // offset of the knob from the centre, y down
    radius: real,
    swStart: int,
    lastSendMs: int,
    maxDrag: real,
    value: Vec)        // the public `*StickValue`, y up
  {
    function Elapsed(now: int): int {
      now - swStart
    }

    /** With a non-negative radius the knob is inside it. */
    predicate KnobInside() {
      loaded && radius >= 0.0 ==> SqLen(knob) <= radius * radius
    }
  }

  /** A stick asks only to move itself or to click. */
  predicate StickRequests(out: seq<Command>) {
    forall i :: 0 <= i < |out| ==> out[i].SetStick? || out[i].Click?
  }

  function Init(side: Side): (s: StickState)
    ensures s.side == side && !s.loaded && s.KnobInside()
  {
    StickState(side, false, Origin, 0.0, 0, 0, 0.0, Origin)
  }

  /** `*StickThumb_Loaded`: take the radius from the widget sizes and restart
      the stopwatch, the throttle and the gesture's distance. */
  function Loaded(s: StickState, w: real, h: real, thumb: real, now: int): (s': StickState)
    ensures s'.loaded && s'.side == s.side && s'.knob == s.knob
    ensures 2.0 * s'.radius + thumb == (if w <= h then w else h)
    ensures s'.Elapsed(now) == 0 && s'.lastSendMs == 0 && s'.maxDrag == 0.0
    ensures s'.value == s.value
  {
    s.(loaded := true, radius := Radius(w, h, thumb), swStart := now, lastSendMs := 0, maxDrag := 0.0)
  }

  /** `UpdateNormalized*`: recompute the stick value from the knob and pass
      it, as two shorts, through the throttle. */
  function UpdateNormalised(s: StickState, now: int): (r: (StickState, seq<Command>))
    ensures r.0 == s.(value := r.0.value, lastSendMs := r.0.lastSendMs)
    // The dead zone and a degenerate radius centre the stick.
    ensures SqLen(s.knob) < DeadZonePx * DeadZonePx || s.radius <= MinRadius ==> r.0.value == Origin
    // Otherwise the value is the offset over the radius, y flipped.
    ensures SqLen(s.knob) >= DeadZonePx * DeadZonePx && s.radius > MinRadius ==>
      r.0.value.x * s.radius == s.knob.x && r.0.value.y * s.radius == -s.knob.y
    // A knob inside the radius gives a value inside the unit disc.
    ensures SqLen(s.knob) <= s.radius * s.radius ==>
      -1.0 <= r.0.value.x <= 1.0 && -1.0 <= r.0.value.y <= 1.0
    // One command, carrying the rounded value, exactly when the throttle
    // lets it through.
    ensures |r.1| == 1 <==> s.Elapsed(now) - s.lastSendMs >= SendIntervalMs
    ensures |r.1| == 0 <==> s.Elapsed(now) - s.lastSendMs < SendIntervalMs
    ensures |r.1| == 1 ==> r.1[0] == SetStick(s.side, ClampStick(r.0.value.x), ClampStick(r.0.value.y))
                           && r.0.lastSendMs == s.Elapsed(now)
    ensures |r.1| == 0 ==> r.0.lastSendMs == s.lastSendMs
    ensures forall i :: 0 <= i < |r.1| ==> r.1[i].SetStick?
  {
    var n := Normalise(s.knob, s.radius);
    NormaliseInUnitDisc(s.knob, s.radius);
    var g := Check(s.Elapsed(now), s.lastSendMs);
    var out := if g.forward then [SetStick(s.side, ClampStick(n.x), ClampStick(n.y))] else [];
    (s.(value := n, lastSendMs := g.lastSendMs), out)
  }

  /** The root's `SizeChanged` handler, registered when the stick is
      loaded: new radius, clamp the knob into it, update the value. `len` is
      the knob's current distance from the centre. */
  function SizeChanged(s: StickState, w: real, h: real, thumb: real, len: real, now: int): (r: (StickState, seq<Command>))
    requires IsLength(s.knob, len)
    ensures var (s', out) := r;
      && (!s.loaded ==> s' == s && out == [])
      && (s.loaded ==>
            && 2.0 * s'.radius + thumb == (if w <= h then w else h)
            && (s'.radius >= 0.0 ==> SqLen(s'.knob) <= s'.radius * s'.radius)
            && (len <= s'.radius ==> s'.knob == s.knob)
            && s'.maxDrag == s.maxDrag && s'.swStart == s.swStart)
      && |out| <= 1
      && s'.KnobInside()
    ensures StickRequests(r.1)
  {
    if !s.loaded then (s, [])
    else UpdateNormalised(Resized(s, w, h, thumb, len), now)
  }

  /** The new radius, and the knob clamped into it. */
  function Resized(s: StickState, w: real, h: real, thumb: real, len: real): (s': StickState)
    requires IsLength(s.knob, len)
    ensures s' == s.(radius := s'.radius, knob := s'.knob)
    ensures 2.0 * s'.radius + thumb == (if w <= h then w else h)
    ensures s'.radius >= 0.0 ==> SqLen(s'.knob) <= s'.radius * s'.radius
    ensures len <= s'.radius ==> s'.knob == s.knob
  {
    var radius := Radius(w, h, thumb);
    s.(radius := radius, knob := ClampToRadius(s.knob, len, radius))
  }

  /** `*StickThumb_DragStarted` as written: the stopwatch and the gesture's
      distance restart, the throttle's last-send time is kept. */
  function DragStartedAsWritten(s: StickState, now: int): (s': StickState)
    ensures s'.Elapsed(now) == 0 && s'.maxDrag == 0.0
    ensures s'.lastSendMs == s.lastSendMs
    ensures s'.knob == s.knob && s'.radius == s.radius && s'.loaded == s.loaded
  {
    s.(swStart := now, maxDrag := 0.0)
  }

  /** `*StickThumb_DragStarted` with the throttle restarted together with
      the stopwatch it is measured on, as `*StickThumb_Loaded` does. */
  function DragStarted(s: StickState, now: int): (s': StickState)
    ensures s'.Elapsed(now) == 0 && s'.maxDrag == 0.0 && s'.lastSendMs == 0
    ensures s'.knob == s.knob && s'.radius == s.radius && s'.loaded == s.loaded
    ensures s'.KnobInside() == s.KnobInside()
  {
    s.(swStart := now, maxDrag := 0.0, lastSendMs := 0)
  }

  /** `*StickThumb_DragDelta`: move the knob by the drag's change, clamp it
      into the radius, update the value, and remember the largest distance
      of the gesture. `len` is the distance of the moved, unclamped knob. */
  function DragDelta(s: StickState, dx: real, dy: real, len: real, now: int): (r: (StickState, seq<Command>))
    requires IsLength(Add(s.knob, Vec(dx, dy)), len)
    ensures !s.loaded ==> r.0 == s && r.1 == []
    // A move changes nothing but the knob, the gesture's distance, the
    // value and the throttle.
    ensures r.0 == s.(knob := r.0.knob, maxDrag := r.0.maxDrag, value := r.0.value, lastSendMs := r.0.lastSendMs)
    // The knob follows the drag inside the radius ...
    ensures s.loaded && len <= s.radius ==> r.0.knob == Add(s.knob, Vec(dx, dy))
    // ... and is held inside it, on the same ray, outside.
    ensures s.loaded && s.radius >= 0.0 ==>
      SqLen(r.0.knob) <= s.radius * s.radius && SameDirection(Add(s.knob, Vec(dx, dy)), r.0.knob)
    // The gesture's distance is the running maximum of the clamped
    // distances.
    ensures s.loaded ==>
      && IsLength(r.0.knob, ClampedLength(len, s.radius))
      && r.0.maxDrag >= s.maxDrag
      && r.0.maxDrag >= ClampedLength(len, s.radius)
      && (r.0.maxDrag == s.maxDrag || r.0.maxDrag == ClampedLength(len, s.radius))
    ensures s.loaded ==> (|r.1| == 1 <==> s.Elapsed(now) - s.lastSendMs >= SendIntervalMs)
    ensures |r.1| <= 1
    ensures r.0.KnobInside()
    // A move only moves the stick.
    ensures forall i :: 0 <= i < |r.1| ==> r.1[i].SetStick?
  {
    if !s.loaded then (s, [])
    else
      var moved := Moved(s, dx, dy, len);
      UpdateNormalised(moved, now)
  }

  /** The knob moved by the drag and clamped, and the gesture's distance
      updated; `len` is the distance of the moved, unclamped knob. */
  function Moved(s: StickState, dx: real, dy: real, len: real): (s': StickState)
    requires IsLength(Add(s.knob, Vec(dx, dy)), len)
    ensures var p := Add(s.knob, Vec(dx, dy));
      && s' == s.(knob := s'.knob, maxDrag := s'.maxDrag)
      && (len <= s.radius ==> s'.knob == p)
      && (s.radius >= 0.0 ==> SqLen(s'.knob) <= s.radius * s.radius && SameDirection(p, s'.knob))
      && IsLength(s'.knob, ClampedLength(len, s.radius))
      && s'.maxDrag >= s.maxDrag
      && s'.maxDrag >= ClampedLength(len, s.radius)
      && (s'.maxDrag == s.maxDrag || s'.maxDrag == ClampedLength(len, s.radius))
  {
    var d := ClampedLength(len, s.radius);
    s.(knob := ClampToRadius(Add(s.knob, Vec(dx, dy)), len, s.radius),
       maxDrag := if s.maxDrag >= d then s.maxDrag else d)
  }

  /** One `DragDelta`: the drag's change, the distance of the moved,
      unclamped knob, and the time. */
  datatype Move = Move(dx: real, dy: real, len: real, now: int)

  /** Each move comes with the distance of the knob it produces. */
  predicate Witnessed(s: StickState, moves: seq<Move>)
    decreases |moves|
  {
    |moves| == 0 ||
    (var m := moves[0];
     IsLength(Add(s.knob, Vec(m.dx, m.dy)), m.len) && Witnessed(DragDelta(s, m.dx, m.dy, m.len, m.now).0, moves[1..]))
  }

  /** The moves of one gesture, in order. */
  function Drag(s: StickState, moves: seq<Move>): (r: (StickState, seq<Command>))
    requires Witnessed(s, moves)
    ensures r.0.loaded == s.loaded && r.0.side == s.side && r.0.radius == s.radius && r.0.swStart == s.swStart
    ensures forall i :: 0 <= i < |r.1| ==> r.1[i].SetStick?
    ensures |r.1| <= |moves|
    decreases |moves|
  {
    if |moves| == 0 then (s, [])
    else
      var m := moves[0];
      var r1 := DragDelta(s, m.dx, m.dy, m.len, m.now);
      var r2 := Drag(r1.0, moves[1..]);
      (r2.0, r1.1 + r2.1)
  }

  /** The gesture's distance stays under a bound exactly when it started
      under it and every move's clamped distance did. */
  lemma {:induction false} DragStaysUnder(s: StickState, moves: seq<Move>, bound: real)
    requires s.loaded && Witnessed(s, moves)
    requires forall k :: 0 <= k < |moves| ==> moves[k].len >= 0.0
    ensures Drag(s, moves).0.maxDrag < bound <==>
      s.maxDrag < bound && forall k :: 0 <= k < |moves| ==> ClampedLength(moves[k].len, s.radius) < bound
    decreases |moves|
  {
    if |moves| > 0 {
      var m := moves[0];
      var s1 := DragDelta(s, m.dx, m.dy, m.len, m.now).0;
      DragStaysUnder(s1, moves[1..], bound);
      assert forall k :: 1 <= k < |moves| ==> moves[k] == moves[1..][k - 1];
    }
  }

  /** A gesture is a tap when it stayed within 6 px and lasted under
      200 ms, both bounds strict. */
  predicate IsTap(s: StickState, now: int) {
    s.maxDrag < TapThresholdPx && s.Elapsed(now) < TapThresholdMs
  }

  /** `*StickThumb_DragCompleted`: start the knob's return animation, click
      the stick on a tap, centre the value and restart the gesture. The
      knob itself is centred when the animation completes. */
  function DragCompleted(s: StickState, now: int): (r: (StickState, seq<Command>))
    ensures var (s', out) := r;
      && (!s.loaded ==> s' == s && out == [])
      && (s.loaded ==>
            && (out == [Click(StickButton(s.side))] <==> IsTap(s, now))
            && (out == [] <==> !IsTap(s, now))
            && s'.value == Origin && s'.maxDrag == 0.0 && s'.Elapsed(now) == 0
            && s'.lastSendMs == s.lastSendMs && s'.knob == s.knob)
      && s'.KnobInside() == s.KnobInside()
    ensures StickRequests(r.1)
  {
    if !s.loaded then (s, [])
    else
      var out := if IsTap(s, now) then [Click(StickButton(s.side))] else [];
      (s.(value := Origin, swStart := now, maxDrag := 0.0), out)
  }

  /** The return animation's `Completed` handler: the knob is back at the
      centre and the console's stick is centred, bypassing the throttle. */
  function ReturnAnimationDone(s: StickState): (r: (StickState, seq<Command>))
    ensures r.0.knob == Origin && r.1 == [SetStick(s.side, 0, 0)]
    ensures r.0.KnobInside()
    ensures r.0 == s.(knob := r.0.knob)
    ensures StickRequests(r.1)
  {
    (s.(knob := Origin), [SetStick(s.side, 0, 0)])
  }

  /** A whole gesture, started at `start` and completed at `end`, clicks
      the stick exactly when every move kept the knob within 6 px of the
      centre and the gesture lasted under 200 ms. */
  lemma GestureClicksIffTap(s: StickState, start: int, moves: seq<Move>, end: int)
    requires s.loaded && Witnessed(DragStartedAsWritten(s, start), moves)
    requires forall k :: 0 <= k < |moves| ==> moves[k].len >= 0.0
    ensures var started := DragStartedAsWritten(s, start);
      var dragged := Drag(started, moves);
      var completed := DragCompleted(dragged.0, end);
      Click(StickButton(s.side)) in dragged.1 + completed.1 <==>
        (forall k :: 0 <= k < |moves| ==> ClampedLength(moves[k].len, s.radius) < TapThresholdPx)
        && end - start < TapThresholdMs
  {
    var started := DragStartedAsWritten(s, start);
    var dragged := Drag(started, moves);
    DragStaysUnder(started, moves, TapThresholdPx);
    var completed := DragCompleted(dragged.0, end);
    assert dragged.0.Elapsed(end) == end - start;
    assert completed.1 == [Click(StickButton(s.side))] <==> IsTap(dragged.0, end);
  }

  // ---------------------------------------------------------------------------
  // The throttle across gestures
  // ---------------------------------------------------------------------------

  /** As written, a stick that last sent late in a long gesture drops every
      update of the next gesture until the stopwatch has caught up with the
      old last-send time: here a gesture that sent at 3000 ms is followed by
      one whose 500 ms move, far outside the dead zone, is not sent. */
  lemma StaleThrottleDropsNextGesture()
    ensures var s := StickState(LeftStick, true, Origin, 50.0, 0, 3000, 0.0, Origin);
      var started := DragStartedAsWritten(s, 10000);
      DragDelta(started, 30.0, 40.0, 50.0, 10500).1 == []
  {
    var s := StickState(LeftStick, true, Origin, 50.0, 0, 3000, 0.0, Origin);
    var started := DragStartedAsWritten(s, 10000);
    assert Add(started.knob, Vec(30.0, 40.0)) == Vec(30.0, 40.0);
    assert started.Elapsed(10500) - started.lastSendMs == 500 - 3000;
  }

  /** With the throttle restarted, the first move of a gesture that comes at
      least the send interval after its start is always sent, whatever the
      earlier gestures did. */
  lemma RestartedThrottleSendsFirstMove(s: StickState, start: int, dx: real, dy: real, len: real, now: int)
    requires s.loaded
    requires now - start >= SendIntervalMs
    requires IsLength(Add(s.knob, Vec(dx, dy)), len)
    ensures var started := DragStarted(s, start);
      |DragDelta(started, dx, dy, len, now).1| == 1
  {
    var started := DragStarted(s, start);
    assert started.Elapsed(now) - started.lastSendMs == now - start;
  }
}

=== FILE: text.dfy ===
/** The few pieces of .NET string handling the client relies on:
    `string.Trim`, `string.IsNullOrWhiteSpace`, ordinal case-insensitive
    comparison, `string.Contains`, `int.ToString` of a non-negative value and
    `int.TryParse` with the default number style. */
module Text {
  import opened Wrappers

  /** `char.IsWhiteSpace`: the Unicode space separators, line and paragraph
      separators, and the control characters U+0009..U+000D, U+0085. */
  predicate IsWhiteSpace(c: char) {
    ('\U{0009}' <= c <= '\U{000D}') || c == ' ' || c == '\U{0085}' || c == '\U{00A0}'
    || c == '\U{1680}' || ('\U{2000}' <= c <= '\U{200A}') || c == '\U{2028}'
    || c == '\U{2029}' || c == '\U{202F}' || c == '\U{205F}' || c == '\U{3000}'
  }

  /** Number parsing accepts only this narrower set around the digits. */
  predicate IsNumberWhite(c: char) {
    ('\U{0009}' <= c <= '\U{000D}') || c == ' '
  }

  predicate IsAsciiDigit(c: char) {
    '0' <= c <= '9'
  }

  predicate AllDigits(s: string) {
    forall i :: 0 <= i < |s| ==> IsAsciiDigit(s[i])
  }

  function DigitValue(c: char): (d: nat)
    requires IsAsciiDigit(c)
    ensures d < 10
  {
    (c as int) - ('0' as int)
  }

  function DigitChar(d: nat): (c: char)
    requires d < 10
    ensures IsAsciiDigit(c) && DigitValue(c) == d
  {
    (('0' as int) + d) as char
  }

  /** The decimal value of a digit string, most significant digit first. */
  function DigitsValue(s: string): nat
    requires AllDigits(s)
  {
    if |s| == 0 then 0 else DigitsValue(s[..|s| - 1]) * 10 + DigitValue(s[|s| - 1])
  }

  /** Number of leading characters of `s` that satisfy `IsWhiteSpace`. */
  function LeadingWhite(s: string): (n: nat)
    ensures n <= |s|
    ensures forall i :: 0 <= i < n ==> IsWhiteSpace(s[i])
    ensures n < |s| ==> !IsWhiteSpace(s[n])
  {
    if |s| == 0 || !IsWhiteSpace(s[0]) then 0 else 1 + LeadingWhite(s[1..])
  }

  /** Number of trailing characters of `s` that satisfy `IsWhiteSpace`. */
  function TrailingWhite(s: string): (n: nat)
    ensures n <= |s|
    ensures forall i :: |s| - n <= i < |s| ==> IsWhiteSpace(s[i])
    ensures n < |s| ==> !IsWhiteSpace(s[|s| - n - 1])
  {
    if |s| == 0 || !IsWhiteSpace(s[|s| - 1]) then 0 else 1 + TrailingWhite(s[..|s| - 1])
  }

  /** A text that starts with a non-white character is not all trailing
      white space. */
  lemma TrailingWhiteStops(s: string)
    requires |s| > 0 && !IsWhiteSpace(s[0])
    ensures TrailingWhite(s) < |s|
  {
  }

  /** Where `string.Trim()` cuts: after the leading and before the
      trailing white space. */
  function WhiteBounds(s: string): (r: (nat, nat))
    ensures r.0 <= r.1 <= |s|
    ensures IsBlank(s[..r.0]) && IsBlank(s[r.1..])
    ensures r.0 < |s| ==> r.0 < r.1 && !IsWhiteSpace(s[r.0]) && !IsWhiteSpace(s[r.1 - 1])
  {
    var a := LeadingWhite(s);
    var rest := s[a..];
    var b := TrailingWhite(rest);
    var e := |s| - b;
    assert IsBlank(s[..a]) by {
      forall i | 0 <= i < a ensures IsWhiteSpace(s[..a][i]) {
        assert s[..a][i] == s[i];
      }
    }
    var tail := s[e..];
    assert IsBlank(tail) by {
      forall i | 0 <= i < b ensures IsWhiteSpace(tail[i]) {
        assert tail[i] == rest[|rest| - b + i];
      }
    }
    if a < |s| then
      assert rest[0] == s[a];
      TrailingWhiteStops(rest);
      assert rest[|rest| - b - 1] == s[e - 1];
      (a, e)
    else
      (a, e)
  }

  /** `string.Trim()`: the longest infix that neither starts nor ends with
      white space. */
  function Trim(s: string): (t: string)
    ensures |t| <= |s|
    ensures |t| > 0 ==> !IsWhiteSpace(t[0]) && !IsWhiteSpace(t[|t| - 1])
    ensures IsInfix(t, s)
    ensures (forall i :: 0 <= i < |s| ==> !IsWhiteSpace(s[i])) ==> t == s
  {
    var (a, e) := WhiteBounds(s);
    var t := s[a..e];
    assert InfixAt(t, s, a);
    assert |t| > 0 ==> t[0] == s[a] && t[|t| - 1] == s[e - 1];
    assert (forall i :: 0 <= i < |s| ==> !IsWhiteSpace(s[i])) ==> s[..a] == [] && s[e..] == [];
    t
  }

  /** What `Trim` cuts off on either side is white space. */
  lemma TrimCutsWhiteSpace(s: string)
    ensures exists k :: InfixAt(Trim(s), s, k) && IsBlank(s[..k]) && IsBlank(s[k + |Trim(s)|..])
  {
    var (a, e) := WhiteBounds(s);
    assert InfixAt(Trim(s), s, a);
  }

  /** `Trim` is the only infix that neither starts nor ends with white
      space and has only white space around it. */
  lemma TrimIsUnique(s: string, t: string, k: int)
    requires InfixAt(t, s, k) && IsBlank(s[..k]) && IsBlank(s[k + |t|..])
    requires |t| > 0 ==> !IsWhiteSpace(t[0]) && !IsWhiteSpace(t[|t| - 1])
    ensures Trim(s) == t
  {
    var (a, e) := WhiteBounds(s);
    if |t| == 0 {
      assert forall i :: 0 <= i < |s| ==> IsWhiteSpace(s[i]) by {
        forall i | 0 <= i < |s| ensures IsWhiteSpace(s[i]) {
          if i < k { assert s[..k][i] == s[i]; } else { assert s[k..][i - k] == s[i]; }
        }
      }
      assert a == |s|;
    } else {
      assert s[k] == t[0] && s[k + |t| - 1] == t[|t| - 1];
      assert a == k;
      assert e == k + |t|;
    }
  }

  /** `t` occurs in `s` starting at index `k`. */
  predicate InfixAt(t: string, s: string, k: int) {
    0 <= k <= |s| - |t| && s[k..k + |t|] == t
  }

  ghost predicate IsInfix(t: string, s: string) {
    exists k :: InfixAt(t, s, k)
  }

  /** `string.IsNullOrWhiteSpace` on a non-null string. */
  predicate IsBlank(s: string) {
    forall i :: 0 <= i < |s| ==> IsWhiteSpace(s[i])
  }

  /** Upper-casing used by the ordinal case-insensitive comparison, restricted
      to the ASCII letters. */
  function UpperAscii(c: char): (u: char)
    ensures 'a' <= c <= 'z' ==> 'A' <= u <= 'Z' && u as int == c as int - 32
    ensures !('a' <= c <= 'z') ==> u == c
  {
    if 'a' <= c <= 'z' then (c as int - 32) as char else c
  }

  /** `string.Equals(a, b, StringComparison.OrdinalIgnoreCase)`. */
  predicate EqualsIgnoreCase(a: string, b: string) {
    |a| == |b| && forall i :: 0 <= i < |a| ==> UpperAscii(a[i]) == UpperAscii(b[i])
  }

  lemma EqualsIgnoreCaseIsEquivalence(a: string, b: string, c: string)
    ensures EqualsIgnoreCase(a, a)
    ensures EqualsIgnoreCase(a, b) ==> EqualsIgnoreCase(b, a)
    ensures EqualsIgnoreCase(a, b) && EqualsIgnoreCase(b, c) ==> EqualsIgnoreCase(a, c)
  {
  }

  /** `haystack.Contains(needle)` with ordinal comparison. */
  predicate Contains(haystack: string, needle: string)
    decreases |haystack|
  {
    if |needle| > |haystack| then false
    else haystack[..|needle|] == needle || (|haystack| > 0 && Contains(haystack[1..], needle))
  }

  lemma {:induction false} ContainsIffInfix(haystack: string, needle: string)
    ensures Contains(haystack, needle) <==> IsInfix(needle, haystack)
    decreases |haystack|
  {
    if |needle| > |haystack| {
    } else if haystack[..|needle|] == needle {
      assert InfixAt(needle, haystack, 0);
    } else if |haystack| == 0 {
      assert false;
    } else {
      ContainsIffInfix(haystack[1..], needle);
      if Contains(haystack, needle) {
        var k :| InfixAt(needle, haystack[1..], k);
        assert haystack[k + 1..k + 1 + |needle|] == haystack[1..][k..k + |needle|];
        assert InfixAt(needle, haystack, k + 1);
      }
      if IsInfix(needle, haystack) {
        var k :| InfixAt(needle, haystack, k);
        assert k != 0;
        assert haystack[1..][k - 1..k - 1 + |needle|] == haystack[k..k + |needle|];
        assert InfixAt(needle, haystack[1..], k - 1);
      }
    }
  }

  /** `n.ToString()` for a non-negative `int`: decimal, no leading zeros. */
  function Show(n: nat): (s: string)
    ensures |s| > 0 && AllDigits(s)
  {
    if n < 10 then [DigitChar(n)] else Show(n / 10) + [DigitChar(n % 10)]
  }

  lemma {:induction false} ShowValue(n: nat)
    ensures DigitsValue(Show(n)) == n
  {
    if n >= 10 {
      ShowValue(n / 10);
      var s := Show(n);
      assert s[..|s| - 1] == Show(n / 10);
    }
  }

  const Int32Min: int := -0x8000_0000
  const Int32Max: int := 0x7FFF_FFFF

  /** Number of leading characters of `s` that satisfy `IsNumberWhite`. */
  function LeadingNumberWhite(s: string): (n: nat)
    ensures n <= |s|
    ensures forall i :: 0 <= i < n ==> IsNumberWhite(s[i])
    ensures n < |s| ==> !IsNumberWhite(s[n])
  {
    if |s| == 0 || !IsNumberWhite(s[0]) then 0 else 1 + LeadingNumberWhite(s[1..])
  }

  /** Number of trailing characters of `s` that satisfy `IsNumberWhite`. */
  function TrailingNumberWhite(s: string): (n: nat)
    ensures n <= |s|
    ensures forall i :: |s| - n <= i < |s| ==> IsNumberWhite(s[i])
    ensures n < |s| ==> !IsNumberWhite(s[|s| - n - 1])
  {
    if |s| == 0 || !IsNumberWhite(s[|s| - 1]) then 0 else 1 + TrailingNumberWhite(s[..|s| - 1])
  }

  /** A text that starts with a non-white character is not all trailing
      white space. */
  lemma TrailingNumberWhiteStops(s: string)
    requires |s| > 0 && !IsNumberWhite(s[0])
    ensures TrailingNumberWhite(s) < |s|
  {
  }

  /** The signed value of `[sign]digits`, when it is one. */
  function SignedDigits(t: string): Option<int> {
    if |t| > 0 && (t[0] == '-' || t[0] == '+') then
      var ds := t[1..];
      if |ds| > 0 && AllDigits(ds) then
        var v: int := DigitsValue(ds);
        Some(if t[0] == '-' then -v else v)
      else None
    else if |t| > 0 && AllDigits(t) then Some(DigitsValue(t))
    else None
  }

  /** Only the white space number parsing skips. */
  predicate IsNumberBlank(s: string) {
    forall i :: 0 <= i < |s| ==> IsNumberWhite(s[i])
  }

  /** Where the characters `int.TryParse` reads as the number start and
      end: after the leading and before the trailing white space. */
  function NumberBounds(s: string): (r: (nat, nat))
    ensures r.0 <= r.1 <= |s|
    ensures IsNumberBlank(s[..r.0]) && IsNumberBlank(s[r.1..])
    ensures r.0 < |s| ==> r.0 < r.1 && !IsNumberWhite(s[r.0]) && !IsNumberWhite(s[r.1 - 1])
  {
    var a := LeadingNumberWhite(s);
    var rest := s[a..];
    var b := TrailingNumberWhite(rest);
    var e := |s| - b;
    assert IsNumberBlank(s[..a]) by {
      forall i | 0 <= i < a ensures IsNumberWhite(s[..a][i]) {
        assert s[..a][i] == s[i];
      }
    }
    var tail := s[e..];
    assert IsNumberBlank(tail) by {
      forall i | 0 <= i < b ensures IsNumberWhite(tail[i]) {
        assert tail[i] == rest[|rest| - b + i];
      }
    }
    if a < |s| then
      assert rest[0] == s[a];
      TrailingNumberWhiteStops(rest);
      assert rest[|rest| - b - 1] == s[e - 1];
      (a, e)
    else
      (a, e)
  }

  /** `s[i..j]` is a signed digit string with only skippable white space
      around it. */
  predicate IsNumberSplit(s: string, i: int, j: int) {
    0 <= i <= j <= |s| && IsNumberBlank(s[..i]) && IsNumberBlank(s[j..]) && SignedDigits(s[i..j]).Some?
  }

  /** A run of characters that neither starts nor ends with white space,
      with only white space around it, is where the number's bounds are:
      there is at most one such split of `s`. */
  lemma NumberSplitUnique(s: string, i: int, j: int)
    requires 0 <= i < j <= |s| && IsNumberBlank(s[..i]) && IsNumberBlank(s[j..])
    requires !IsNumberWhite(s[i]) && !IsNumberWhite(s[j - 1])
    ensures NumberBounds(s) == (i, j)
  {
    var (a, e) := NumberBounds(s);
    assert a == i;
  }

  /** A signed digit string is not empty and neither starts nor ends with
      white space. */
  lemma SignedDigitsEnds(t: string)
    requires SignedDigits(t).Some?
    ensures |t| > 0 && !IsNumberWhite(t[0]) && !IsNumberWhite(t[|t| - 1])
  {
    if t[0] == '-' || t[0] == '+' {
      assert t[|t| - 1] == t[1..][|t| - 2];
    }
  }

  /** `int.TryParse(s, out v)` with `NumberStyles.Integer`: optional white
      space, an optional sign, one or more ASCII digits, optional white space,
      and a value that fits a 32-bit signed integer. */
  function TryParseInt(s: string): (r: Option<int>)
    ensures r.Some? ==> Int32Min <= r.value <= Int32Max
    ensures IsNumberBlank(s) ==> r.None?
  {
    var (a, e) := NumberBounds(s);
    var v := SignedDigits(s[a..e]);
    if v.Some? && Int32Min <= v.value <= Int32Max then
      assert s[a..e][0] == s[a];
      v
    else None
  }

  /** A parsed value is the value of a signed digit string with only white
      space around it. */
  lemma TryParseIntHasSplit(s: string)
    ensures TryParseInt(s).Some? ==>
      exists i, j :: IsNumberSplit(s, i, j) && SignedDigits(s[i..j]) == TryParseInt(s)
  {
    var (a, e) := NumberBounds(s);
    assert TryParseInt(s).Some? ==> IsNumberSplit(s, a, e);
  }

  /** A signed digit string with only white space around it is parsed to its
      value when that fits 32 bits, and makes the parse fail when it does
      not. */
  lemma TryParseIntOfSplit(s: string, i: int, j: int)
    requires IsNumberSplit(s, i, j)
    ensures TryParseInt(s) ==
      if Int32Min <= SignedDigits(s[i..j]).value <= Int32Max then SignedDigits(s[i..j]) else None
  {
    SignedDigitsEnds(s[i..j]);
    assert s[i] == s[i..j][0] && s[j - 1] == s[i..j][j - i - 1];
    NumberSplitUnique(s, i, j);
  }

  /** `int.ToString` followed by `int.TryParse` gives the number back. */
  lemma ParseShow(n: nat)
    ensures n <= Int32Max ==> TryParseInt(Show(n)) == Some(n)
  {
    var s := Show(n);
    ShowValue(n);
    assert s[..0] == [] && s[|s|..] == [];
    NumberSplitUnique(s, 0, |s|);
    assert s[0..|s|] == s;
    assert s[0] != '-' && s[0] != '+';
  }

  /** A digit string has no white space, so `Trim` leaves it alone. */
  lemma TrimDigits(s: string)
    requires AllDigits(s)
    ensures Trim(s) == s
  {
    assert forall i :: 0 <= i < |s| ==> !IsWhiteSpace(s[i]);
  }
}

=== FILE: throttle.dfy ===
/** `ThrottledSendStick`: a stick update is forwarded only when at least
    `SendIntervalMs` milliseconds of the stick's stopwatch have passed since
    the last forwarded one; the others are dropped, not queued. */
module Throttle {

  const SendIntervalMs: int := 15

  /** What one update does: whether it is forwarded, and the new
      last-send time. */
  datatype Gate = Gate(forward: bool, lastSendMs: int)

  function Check(now: int, lastSendMs: int): (g: Gate)
    ensures g.forward <==> now - lastSendMs >= SendIntervalMs
    ensures g.forward ==> g.lastSendMs == now
    ensures !g.forward ==> g.lastSendMs == lastSendMs
  {
    if now - lastSendMs >= SendIntervalMs then Gate(true, now) else Gate(false, lastSendMs)
  }

  /** The update times, out of `times`, that get forwarded when the last
      send was at `lastSendMs`. */
  function Forwarded(lastSendMs: int, times: seq<int>): (f: seq<int>)
    ensures |f| <= |times|
    ensures forall i :: 0 <= i < |f| ==> f[i] in times
    decreases |times|
  {
    if |times| == 0 then []
    else
      var g := Check(times[0], lastSendMs);
      (if g.forward then [times[0]] else []) + Forwarded(g.lastSendMs, times[1..])
  }

  /** Forwarded updates are at least the interval apart, and the first is at
      least the interval after the previous send. */
  lemma {:induction false} ForwardedSpacing(lastSendMs: int, times: seq<int>)
    ensures var f := Forwarded(lastSendMs, times);
      (|f| > 0 ==> f[0] - lastSendMs >= SendIntervalMs)
      && forall i :: 0 <= i < |f| - 1 ==> f[i + 1] - f[i] >= SendIntervalMs
    decreases |times|
  {
    if |times| > 0 {
      var g := Check(times[0], lastSendMs);
      ForwardedSpacing(g.lastSendMs, times[1..]);
    }
  }

  /** Spacing makes the forwarded times increase at least linearly. */
  lemma {:induction false} SpacedGrows(f: seq<int>, k: nat)
    requires forall i :: 0 <= i < |f| - 1 ==> f[i + 1] - f[i] >= SendIntervalMs
    requires k < |f|
    ensures f[k] - f[0] >= k * SendIntervalMs
  {
    if k > 0 {
      SpacedGrows(f, k - 1);
    }
  }

  /** However many updates arrive between `lo` and `hi`, at most
      `(hi - lo) / 15 + 1` are forwarded. */
  lemma BurstBound(lastSendMs: int, times: seq<int>, lo: int, hi: int)
    requires lo <= hi
    requires forall i :: 0 <= i < |times| ==> lo <= times[i] <= hi
    ensures |Forwarded(lastSendMs, times)| <= (hi - lo) / SendIntervalMs + 1
  {
    var f := Forwarded(lastSendMs, times);
    if |f| > 1 {
      ForwardedSpacing(lastSendMs, times);
      SpacedGrows(f, |f| - 1);
      assert f[0] in times && f[|f| - 1] in times;
      assert (|f| - 1) * SendIntervalMs <= hi - lo;
    }
  }
}

=== FILE: window.dfy ===
/** The main window's session state outside the sticks and the hold timer:
    the connection flags, the indicator and texts the user sees, the
    commands sent to the console, and the three screen-feed strategies of
    stream modes 0 (polling loop), 1 (preview after commands) and 2 (RTSP
    player). Also the connection gate of `Click`, `HoldDown`, `HoldUp` and
    `SetStick`, and the screenshot button.

    Dialogs (`MessageBox.Show`) are recorded in `messages`; files written
    by the screenshot button in `files`. */
module Window {
  import opened Wrappers
  import opened Text
  import opened Commands
  import Preview

  type Byte = x: int | 0 <= x < 256

  const PollingMode: int := 0
  const RtspMode: int := 2

  /** How long a command keeps the preview alive, in milliseconds. */
  const ButtonPreviewMs: int := 2000
  const StickPreviewMs: int := 1000

  const NotConnectedLog: string := "暂未连接switch，请在连接完成后再使用！！"
  const Disconnected: string := "未连接"

  datatype Colour = Green | Red | Yellow

  /** One screen-polling loop: whether its token was cancelled and whether
      it is still running. */
  datatype Slot = Slot(cancelled: bool, running: bool)

  /** The window's initial texts and button states, from its markup. */
  datatype Markup = Markup(
    indicator: Colour, status: string, log: string,
    startEnabled: bool, stopEnabled: bool, captureEnabled: bool, rescueLabel: string)

  /** The connection: `CON != null`, `SwitchConnection.Connected`,
      `SOUR != null`. */
  datatype Link = Link(conSet: bool, connected: bool, sourSet: bool)

  /** What the user sees besides the screen. */
  datatype Ui = Ui(
    inputsEnabled: bool,      // address and port text boxes
    startEnabled: bool,
    stopEnabled: bool,
    captureEnabled: bool,
    indicator: Colour,
    status: string,
    log: string,
    messages: seq<string>,
    rescueLabel: string)

  /** The polling loops and the player. */
  datatype Video = Video(
    slots: seq<Slot>,         // every polling loop ever started, in order
    current: Option<nat>,     // the loop `_streamCts` belongs to
    rtspStreaming: bool,
    vlcVisible: bool,
    imageVisible: bool,
    playing: bool)            // the media player has a stream

  datatype W = W(
    mode: int,                // `StreamMode`; a change needs a restart
    rtspPort: nat,
    link: Link,
    ui: Ui,
    sent: seq<Command>,
    preview: Preview.PreviewState,
    video: Video,
    grab: seq<Byte>,          // `_screenGrab`, the last frame
    files: seq<(string, seq<Byte>)>)
  {
    predicate Connected() {
      link.connected
    }
  }

  function Init(mode: int, rtspPort: nat, m: Markup): (w: W)
    ensures w.mode == mode && !w.link.connected && !w.link.conSet && w.sent == []
    ensures w.video.imageVisible && !w.video.vlcVisible && !w.video.rtspStreaming && !w.video.playing
    ensures w.video.slots == [] && w.video.current == None && w.preview == Preview.Idle
  {
    W(mode, rtspPort, Link(false, false, false),
      Ui(true, m.startEnabled, m.stopEnabled, m.captureEnabled, m.indicator, m.status, m.log, [], m.rescueLabel),
      [], Preview.Idle, Video([], None, false, false, true, false), [], [])
  }


  /** Show a dialog. */
  function Notify(w: W, message: string): (w': W)
    ensures w'.ui.messages == w.ui.messages + [message]
    ensures w' == w.(ui := w.ui.(messages := w.ui.messages + [message]))
  {
    w.(ui := w.ui.(messages := w.ui.messages + [message]))
  }

  function SetLog(w: W, log: string): (w': W)
    ensures w'.ui.log == log
    ensures w' == w.(ui := w.ui.(log := log))
  {
    w.(ui := w.ui.(log := log))
  }

  /** Set the indicator colour and the status text next to it. */
  function Indicate(w: W, c: Colour, status: string): (w': W)
    ensures w'.ui.indicator == c && w'.ui.status == status
    ensures w' == w.(ui := w.ui.(indicator := c, status := status))
  {
    w.(ui := w.ui.(indicator := c, status := status))
  }

  // ---------------------------------------------------------------------------
  // The connection gate
  // ---------------------------------------------------------------------------

  /** The four operations that go through the gate. */
  predicate Gated(c: Command) {
    c.Click? || c.Hold? || c.Release? || c.SetStick?
  }

  /** Buttons need `CON` to be set as well; the stick only the connection. */
  predicate MaySend(link: Link, c: Command) {
    if c.SetStick? then link.connected else link.conSet && link.connected
  }

  function PreviewMs(c: Command): (ms: int)
    ensures ms > 0
    ensures c.SetStick? ==> ms == StickPreviewMs
    ensures !c.SetStick? ==> ms == ButtonPreviewMs
  {
    if c.SetStick? then StickPreviewMs else ButtonPreviewMs
  }

  /** `TriggerPreview`. */
  function TriggerPreview(w: W, now: int, ms: int): (w': W)
    ensures w' == w.(preview := w'.preview)
    ensures w'.preview.until >= w.preview.until
    ensures w.mode == Preview.PreviewMode ==> w'.preview.until >= now + ms && w'.preview.running
    ensures w.mode != Preview.PreviewMode ==> w' == w
  {
    w.(preview := Preview.Trigger(w.preview, w.mode, now, ms).0)
  }

  /** `Click`, `HoldDown`, `HoldUp`, `SetStick`: when connected, send the
      command and keep the preview alive; otherwise only tell the user. */
  function Send(w: W, c: Command, now: int): (w': W)
    requires Gated(c)
    ensures MaySend(w.link, c) ==>
      && w'.sent == w.sent + [c]
      && w'.preview.until >= w.preview.until
      && (w.mode == Preview.PreviewMode ==> w'.preview.until >= now + PreviewMs(c))
      && w' == w.(sent := w'.sent, preview := w'.preview)
    ensures !MaySend(w.link, c) ==> w' == SetLog(w, NotConnectedLog)
    ensures w.mode != Preview.PreviewMode ==> w'.preview == w.preview
  {
    if MaySend(w.link, c) then TriggerPreview(w.(sent := w.sent + [c]), now, PreviewMs(c))
    else SetLog(w, NotConnectedLog)
  }

  /** Several requests one after the other, as a stick operation makes. */
  function SendAll(w: W, cs: seq<Command>, now: int): (w': W)
    requires forall i :: 0 <= i < |cs| ==> Gated(cs[i])
    ensures w'.mode == w.mode && w'.link == w.link && w'.video == w.video && w'.grab == w.grab
    ensures w'.preview.until >= w.preview.until
    ensures w.mode != Preview.PreviewMode ==> w'.preview == w.preview
    decreases |cs|
  {
    if |cs| == 0 then w else SendAll(Send(w, cs[0], now), cs[1..], now)
  }

  /** Disconnected, nothing a gesture asks for reaches the console, and the
      only visible effect is the notice. */
  lemma {:induction false} SendAllDisconnected(w: W, cs: seq<Command>, now: int)
    requires forall i :: 0 <= i < |cs| ==> Gated(cs[i])
    ensures !w.link.connected ==>
      SendAll(w, cs, now) == if |cs| == 0 then w else SetLog(w, NotConnectedLog)
    decreases |cs|
  {
    if |cs| > 0 {
      var w1 := Send(w, cs[0], now);
      SendAllDisconnected(w1, cs[1..], now);
    }
  }

  /** Connected, every request is sent, in order. */
  lemma {:induction false} SendAllConnected(w: W, cs: seq<Command>, now: int)
    requires forall i :: 0 <= i < |cs| ==> Gated(cs[i])
    requires w.link.connected && w.link.conSet
    ensures SendAll(w, cs, now).sent == w.sent + cs
    decreases |cs|
  {
    if |cs| > 0 {
      var w1 := Send(w, cs[0], now);
      SendAllConnected(w1, cs[1..], now);
      assert w.sent + [cs[0]] + cs[1..] == w.sent + cs;
    }
  }

  // ---------------------------------------------------------------------------
  // Polling loops (mode 0, and mode 2's rescue)
  // ---------------------------------------------------------------------------

  /** `StopScreenStream`: cancel the current loop's token and forget it. */
  function StopScreenStream(v: Video): (v': Video)
    ensures v'.current == None && |v'.slots| == |v.slots|
    ensures forall i :: 0 <= i < |v.slots| ==>
      v'.slots[i].running == v.slots[i].running
      && (v'.slots[i].cancelled <==> v.slots[i].cancelled || v.current == Some(i))
    ensures v' == v.(slots := v'.slots, current := None)
  {
    match v.current
    case Some(i) =>
      if i < |v.slots| then v.(slots := v.slots[i := v.slots[i].(cancelled := true)], current := None)
      else v.(current := None)
    case None => v
  }

  /** `StartScreenStream(force)`: outside mode 0 only a forced start runs;
      it stops the current loop and starts a fresh one. */
  function StartScreenStream(v: Video, mode: int, force: bool): (v': Video)
    ensures !force && mode != PollingMode ==> v' == v
    ensures force || mode == PollingMode ==>
      && |v'.slots| == |v.slots| + 1
      && v'.current == Some(|v.slots|)
      && v'.slots[|v.slots|] == Slot(false, true)
      && (forall i :: 0 <= i < |v.slots| ==>
            v'.slots[i].running == v.slots[i].running
            && (v'.slots[i].cancelled <==> v.slots[i].cancelled || v.current == Some(i)))
      && v' == v.(slots := v'.slots, current := v'.current)
  {
    if !force && mode != PollingMode then v
    else
      var stopped := StopScreenStream(v);
      stopped.(slots := stopped.slots + [Slot(false, true)], current := Some(|v.slots|))
  }

  /** `ScreenLoopAsync`'s `while` condition. */
  predicate ScreenContinues(w: W, i: nat)
    requires i < |w.video.slots|
  {
    !w.video.slots[i].cancelled && w.link.connected && !w.video.rtspStreaming
  }

  /** Keep a non-empty frame as the last frame. */
  function Deliver(w: W, pic: seq<Byte>): (w': W)
    ensures w' == w.(grab := w'.grab)
    ensures |pic| > 0 ==> w'.grab == pic
    ensures |pic| == 0 ==> w'.grab == w.grab
  {
    if |pic| > 0 then w.(grab := pic) else w
  }

  /** One pass of polling loop `i`: it ends when its guard fails, otherwise
      it grabs `pic` (empty when the grab failed). */
  function ScreenTick(w: W, i: nat, pic: seq<Byte>): (w': W)
    requires i < |w.video.slots|
    ensures var s := w.video.slots;
      && |w'.video.slots| == |s|
      && (w'.video.slots[i].running <==> s[i].running && ScreenContinues(w, i))
      && w'.video.slots[i].cancelled == s[i].cancelled
      && (forall j :: 0 <= j < |s| && j != i ==> w'.video.slots[j] == s[j])
    ensures w'.grab != w.grab ==> w.video.slots[i].running && ScreenContinues(w, i) && w'.grab == pic
    ensures w' == w.(video := w'.video, grab := w'.grab)
    ensures w'.video == w.video.(slots := w'.video.slots)
  {
    var s := w.video.slots;
    if !s[i].running then w
    else if !ScreenContinues(w, i) then w.(video := w.video.(slots := s[i := s[i].(running := false)]))
    else Deliver(w, pic)
  }

  /** One pass of the preview loop. */
  function PreviewTick(w: W, now: int, pic: seq<Byte>): (w': W)
    ensures w'.preview.until == w.preview.until && w'.preview.loops == w.preview.loops
    ensures w'.preview.running <==> w.preview.running && Preview.Continues(w.preview, w.link.connected, now)
    ensures w'.grab != w.grab ==> w'.preview.running && w'.grab == pic
    ensures w' == w.(preview := w'.preview, grab := w'.grab)
  {
    var p := Preview.Tick(w.preview, w.link.connected, now);
    var w1 := w.(preview := p);
    if p.running then Deliver(w1, pic) else w1
  }

  // ---------------------------------------------------------------------------
  // The RTSP player (mode 2)
  // ---------------------------------------------------------------------------

  /** The stream address of the console. */
  function RtspUrl(ip: string, port: nat): (url: string)
    ensures !IsBlank(url)
  {
    var url := "rtsp://" + ip + ":" + Show(port) + "/";
    assert url[0] == 'r' && !IsWhiteSpace(url[0]);
    url
  }

  /** `StopRtspStream`: stop the player and show the frame image. */
  function StopRtspStream(v: Video): (v': Video)
    ensures !v'.playing && !v'.vlcVisible && v'.imageVisible
    ensures v'.slots == v.slots && v'.current == v.current && v'.rtspStreaming == v.rtspStreaming
  {
    v.(playing := false, vlcVisible := false, imageVisible := true)
  }

  /** `StartRtspStream(url)`: only in mode 2; restart the player on `url`
      and show it. `playError` is the message of the exception the player
      threw, if it did: then fall back to the image with a yellow
      indicator. */
  function StartRtspStream(w: W, url: string, playError: Option<string>): (w': W)
    ensures w.mode != RtspMode ==> w' == w
    ensures w.mode == RtspMode ==>
      var v' := w'.video;
      && v'.vlcVisible == !v'.imageVisible
      && (IsBlank(url) ==>
            && w'.ui.messages == w.ui.messages + ["RTSP地址不能为空！"]
            && !v'.vlcVisible && !v'.playing && v'.rtspStreaming == w.video.rtspStreaming)
      && (!IsBlank(url) && playError.None? ==>
            v'.rtspStreaming && v'.playing && v'.vlcVisible && w'.ui == w.ui)
      && (!IsBlank(url) && playError.Some? ==>
            && !v'.rtspStreaming && !v'.playing && !v'.vlcVisible
            && w'.ui.indicator == Yellow && w'.ui.status == "RTSP 未连接"
            && w'.ui.messages == w.ui.messages + ["RTSP连接失败：" + playError.value])
    ensures w'.link == w.link && w'.sent == w.sent && w'.preview == w.preview && w'.mode == w.mode
    ensures w'.video.slots == w.video.slots && w'.video.current == w.video.current
    ensures w'.grab == w.grab && w'.files == w.files && w'.rtspPort == w.rtspPort
  {
    if w.mode != RtspMode then w
    else
      var stopped := w.(video := StopRtspStream(w.video));
      if IsBlank(url) then Notify(stopped, "RTSP地址不能为空！")
      else
        var shown := stopped.(video := stopped.video.(vlcVisible := true, imageVisible := false, rtspStreaming := true));
        match playError
        case None => shown.(video := shown.video.(playing := true))
        case Some(msg) =>
          var back := shown.(video := shown.video.(rtspStreaming := false, vlcVisible := false, imageVisible := true));
          Notify(Indicate(back, Yellow, "RTSP 未连接"), "RTSP连接失败：" + msg)
  }

  /** `btnRtspRescue_Click`: toggle between the player and forced polling.
      Leaving the player only hides it; the player is not stopped. */
  function Rescue(w: W, ip: string, playError: Option<string>): (w': W)
    ensures var v := w.video; var v' := w'.video;
      v.rtspStreaming ==>
        && !v'.rtspStreaming && !v'.vlcVisible && v'.imageVisible
        && v'.playing == v.playing
        && w'.ui.rescueLabel == "RTSP恢复"
        && |v'.slots| == |v.slots| + 1 && v'.current == Some(|v.slots|)
        && v'.slots[|v.slots|] == Slot(false, true)
    ensures var v := w.video; var v' := w'.video;
      !v.rtspStreaming ==>
        && w'.ui.rescueLabel == "RTSP救援" && v'.slots == v.slots && v'.current == v.current
        && (w.mode == RtspMode ==>
              && (v'.rtspStreaming <==> playError.None?) && (v'.playing <==> playError.None?)
              && v'.vlcVisible == v'.rtspStreaming && v'.imageVisible == !v'.rtspStreaming)
    ensures w'.sent == w.sent && w'.link == w.link && w'.mode == w.mode && w'.preview == w.preview
  {
    var v := w.video;
    if v.rtspStreaming then
      var v1 := v.(rtspStreaming := false, vlcVisible := false, imageVisible := true);
      w.(ui := w.ui.(rescueLabel := "RTSP恢复"), video := StartScreenStream(v1, w.mode, true))
    else
      var w1 := w.(ui := w.ui.(rescueLabel := "RTSP救援"),
                   video := v.(rtspStreaming := true, vlcVisible := true, imageVisible := false));
      StartRtspStream(w1, RtspUrl(ip, w.rtspPort), playError)
  }

  // ---------------------------------------------------------------------------
  // Stop and screenshot buttons
  // ---------------------------------------------------------------------------

  /** `btnStopStream_Click`: disconnect, replace the session's cancellation
      source, stop the player and say so. */
  function StopClick(w: W): (w': W)
    ensures !w'.link.connected && w'.link.sourSet && w'.link.conSet == w.link.conSet
    ensures w'.ui.startEnabled && !w'.ui.stopEnabled && !w'.ui.captureEnabled
    ensures w'.ui.indicator == Red && w'.ui.status == Disconnected && w'.ui.log == "Switch | 已断开连接！！"
    ensures !w'.video.playing && w'.video.imageVisible && !w'.video.vlcVisible
    ensures w'.video.rtspStreaming == w.video.rtspStreaming
    ensures w'.video.slots == w.video.slots && w'.video.current == w.video.current
    ensures w'.sent == w.sent && w'.preview == w.preview && w'.mode == w.mode
  {
    var ui := w.ui.(stopEnabled := false, captureEnabled := false, startEnabled := true,
                    log := "Switch | 已断开连接！！", indicator := Red, status := Disconnected);
    w.(ui := ui, link := w.link.(connected := false, sourSet := true), video := StopRtspStream(w.video))
  }

  /** What the one-off grab of the screenshot button returns. */
  datatype Fetch = Fetched(bytes: seq<Byte>) | FetchedNull | FetchThrew(message: string)

  const NotConnectedCapture: string := "保存失败，你还未连接 Switch！"
  const EmptyCapture: string := "截图数据为空，保存失败。"

  /** The bytes to save: the last frame when there is one, else a fresh grab
      (a null grab is no bytes); `None` when the grab threw. */
  function CaptureBuffer(grab: seq<Byte>, fetch: Fetch): (b: Option<seq<Byte>>)
    ensures |grab| > 0 ==> b == Some(grab)
    ensures |grab| == 0 ==> (b.None? <==> fetch.FetchThrew?)
    ensures |grab| == 0 && fetch.Fetched? ==> b == Some(fetch.bytes)
    ensures |grab| == 0 && fetch.FetchedNull? ==> b == Some([])
  {
    if |grab| > 0 then Some(grab)
    else match fetch
      case Fetched(bytes) => Some(bytes)
      case FetchedNull => Some([])
      case FetchThrew(_) => None
  }

  /** Report a failed save. */
  function SaveFailed(w: W, message: string): (w': W)
    ensures w'.ui.messages == w.ui.messages + ["截图保存失败：" + message]
    ensures w'.ui.log == "截图保存失败。" && w'.files == w.files
  {
    SetLog(Notify(w, "截图保存失败：" + message), "截图保存失败。")
  }

  /** `btnCapture_Click`. `path` is the file the save dialog returned
      (`None` when it was cancelled); `fetch` is what a grab would return;
      `writeError` the message of the exception writing the file threw, if
      it did. */
  function Capture(w: W, path: Option<string>, fetch: Fetch, writeError: Option<string>): (w': W)
    ensures !w.link.connected || !w.link.sourSet ==> w' == Notify(w, NotConnectedCapture)
    ensures w.link.connected && w.link.sourSet && path.None? ==> w' == w
    // A file is written only with the buffer's non-empty bytes, to the chosen path.
    ensures |w'.files| > |w.files| ==>
      && w.link.connected && w.link.sourSet && path.Some? && writeError.None?
      && CaptureBuffer(w.grab, fetch).Some?
      && |CaptureBuffer(w.grab, fetch).value| > 0
      && w'.files == w.files + [(path.value, CaptureBuffer(w.grab, fetch).value)]
      && w'.ui.log == "截图已保存到：" + path.value
    ensures |w'.files| == |w.files| || |w'.files| == |w.files| + 1
    ensures w.link.connected && w.link.sourSet && path.Some? && writeError.None?
      && CaptureBuffer(w.grab, fetch).Some? && |CaptureBuffer(w.grab, fetch).value| > 0
      ==> |w'.files| == |w.files| + 1
    ensures w.link.connected && w.link.sourSet && path.Some? && CaptureBuffer(w.grab, fetch) == Some([])
      ==> w'.ui.messages == w.ui.messages + [EmptyCapture] && w'.files == w.files
    // A grab that throws, or a write that throws, is reported and writes
    // nothing; the last frame becomes whatever buffer was used.
    ensures w.link.connected && w.link.sourSet && path.Some? && CaptureBuffer(w.grab, fetch).None? ==>
      && w'.ui.messages == w.ui.messages + ["截图保存失败：" + fetch.message]
      && w'.ui.log == "截图保存失败。" && w'.files == w.files && w'.grab == w.grab
    ensures (w.link.connected && w.link.sourSet && path.Some? && writeError.Some?
             && CaptureBuffer(w.grab, fetch).Some? && |CaptureBuffer(w.grab, fetch).value| > 0) ==>
      && w'.ui.messages == w.ui.messages + ["截图保存失败：" + writeError.value]
      && w'.ui.log == "截图保存失败。" && w'.files == w.files
    ensures w.link.connected && w.link.sourSet && path.Some? && CaptureBuffer(w.grab, fetch).Some?
      ==> w'.grab == CaptureBuffer(w.grab, fetch).value
    ensures w'.sent == w.sent && w'.link == w.link && w'.video == w.video
    ensures w'.preview == w.preview && w'.mode == w.mode
  {
    if !w.link.connected || !w.link.sourSet then Notify(w, NotConnectedCapture)
    else match path
      case None => w
      case Some(file) =>
        match CaptureBuffer(w.grab, fetch)
        case None => SaveFailed(w, fetch.message)
        case Some(bytes) =>
          var w1 := w.(grab := bytes);
          if |bytes| == 0 then Notify(w1, EmptyCapture)
          else match writeError
            case Some(msg) => SaveFailed(w1, msg)
            case None => SetLog(w1.(files := w1.files + [(file, bytes)]), "截图已保存到：" + file)
  }

  /** With a last frame at hand the screenshot saves exactly those bytes,
      whatever a fresh grab would have returned. */
  lemma CaptureSavesLastFrame(w: W, file: string, fetch: Fetch)
    requires w.link.connected && w.link.sourSet && |w.grab| > 0
    ensures Capture(w, Some(file), fetch, None).files == w.files + [(file, w.grab)]
  {
  }
}

=== FILE: wrappers.dfy ===
/** The optional value used wherever the program works with a nullable value
    or a TryParse-style "did it work" result. */
module Wrappers {

  datatype Option<+T> = None | Some(value: T) {

    /** The wrapped value, or `default` when there is none (C#'s `??`). */
    function GetOr(default: T): (r: T)
      ensures Some? ==> r == value
      ensures None? ==> r == default
    {
      match this
      case Some(v) => v
      case None => default
    }
  }
}
